=== FILE: README.md ===
# Memory stack pool — a Dafny model

This project models the core of a small Node.js caching layer. That core has three parts:

- **`MemoryController`**: a pool of eight typed memory stacks. Odd ids hold callable payloads (`F`) and even ids hold static payloads (`S`). The controller selects a stack for each write and protects it with a lease: a lock plus a timeout that force-releases it. It trims stacks that get full, moves items to sibling stacks, and recovers a stack that has failed too often.
- **`MemoryMonitor`**: the statistics registry. It keeps per-stack operation counters, timing and size figures, a health classification and a bounded history of snapshots. It also owns the periodic monitoring task.
- **`NodeQueueBuffer`**: a plain FIFO queue.

Everything is modelled as immutable values and pure functions.

- **State is passed explicitly.** The controller's state is the sequence of stacks plus the registry. The registry is a process-wide singleton in JavaScript; here it travels as a value.
- **Exceptions are results.** Every thrown error is an `Outcome`/`ReadOutcome` value carrying `Some(error)`.
- **External inputs are parameters.** Each reading of the clock is a `now` parameter, and each measured duration is an `elapsed` parameter. Every timer callback is a separate operation the caller applies: `LockTimeoutFires` for the lease timeout, `HealthCheckRound` for the health check.

`PoolProperties` proves four things:

- the constructor establishes a pool invariant (`Sound`), and every public operation, in any order, keeps it;
- what a successful write does;
- how a lease behaves under lock, unlock and timeout;
- that the "locked without a timer" health condition can never be observed.

Files:

| file | module | contents |
|---|---|---|
| `common.dfy` | `Common` | `Option` |
| `queue.dfy` | `NodeQueueBuffer` | the FIFO queue |
| `payload.dfy` | `Payloads` | payloads, their kind, `validateData` |
| `stacks.dfy` | `MemoryStacks` | one stack: capacity test, MRU sort, `optimizeStack` trim, recovery filter |
| `monitor.dfy` | `MemoryMonitor` | the statistics registry |
| `controller.dfy` | `MemoryController` | the pool and all its operations |
| `pool.dfy` | `PoolProperties` | pool-wide invariants and lease properties |

Predicates that the contracts use, each defined once after its source:

- `Payloads.ValidateData` is `validateData` (MemoryController.js:93-102): null and undefined are rejected, functions are accepted, and any other value is accepted exactly when it serialises.
- `MemoryStacks.IsStackNearCapacity` is `isStackNearCapacity` (MemoryController.js:104-106): more than 900 of the 1000 slots are used.
- `MemoryController.Unhealthy` is the reporting condition of the health check (MemoryController.js:281-290): error rate above one tenth, idle for over five minutes, or locked without a timer.
- `NodeQueueBuffer.IsEmpty` is `isEmpty` (NodeQueueBuffer.js:20-22): the buffer holds no item.

Arithmetic is exact:

- `Math.floor(n * 0.8)` is `4n/5`, and `Math.floor(n * 0.3)` is `3n/10`.
- `length > 1000 * 0.9` is `10 * length > 9000`.
- Each floating-point quotient (error rate, fill ratio, average time) is a pair of integers and is compared by cross-multiplication.

Behaviour of the code worth noting, all modelled as written:

- Initialising a stack's statistics twice overwrites the record rather than doing nothing (`InitializeStackMonitoring`).
- The snapshot history keeps the newest 100 entries by shifting out the oldest one. It does not compact to 50, or to 25 plus every fourth entry (`Retain`).
- A failed write counts the error on the stack only. No `errors` operation is recorded in the registry (`OnWriteError`).
- A read updates the first *unlocked* stack of its kind. The read is recorded in the registry against the first stack of its kind, locked or not (`ProcessReadData`).
- `startMonitoring` called again does not cancel the running task. The constructor calls it as written (`NewController`); the leak is reported under Findings.
- The trim sorts a stack newest first and then keeps the *tail* of that order (`slice(-itemsToKeep)`), so it keeps the least recently used items and drops the most recent ones (`MemoryStacks.TrimDropsNewest`). The pool trims as written (`MemoryController.OptimizeStack` calls `MemoryStacks.OptimizeDataAsWritten`), which on every stack of two items or more is the corrected trim (`MemoryStacks.TrimsAgree`).

## Model

| member | source | states |
|---|---|---|
| NodeQueueBuffer.Empty | NodeQueueBuffer.js:4-6 | a new buffer holds nothing |
| NodeQueueBuffer.Push | NodeQueueBuffer.js:8-13 | any value, falsy or not, goes to the back; the buffer grows by one and earlier items are untouched |
| NodeQueueBuffer.Pop | NodeQueueBuffer.js:15-18 | the oldest item comes out and the rest keep their order; popping an empty buffer yields nothing and leaves it empty |
| NodeQueueBuffer.IsEmptyIffPopNone | NodeQueueBuffer.js:15-22 | `isEmpty` holds exactly when `pop` has nothing to return |
| NodeQueueBuffer.PushAllAppends | NodeQueueBuffer.js:8-13 | pushing a sequence of items appends them all in order |
| NodeQueueBuffer.DrainInOrder | NodeQueueBuffer.js:15-22 | popping until empty yields the contents front to back and ends empty |
| NodeQueueBuffer.Fifo | NodeQueueBuffer.js:8-18 | items come out of a fresh buffer in exactly the order they went in |
| Payloads.KindOf | MemoryController.js:77 | a payload is routed to `F` stacks exactly when it is a function |
| MemoryStacks.InsertMru | MemoryController.js:224 | inserting into a newest-first sequence keeps it newest-first and adds exactly the one item |
| MemoryStacks.SortMru | MemoryController.js:224 | the access-time sort yields a newest-first permutation of the stack's items |
| MemoryStacks.KeepCount | MemoryController.js:221 | the kept count is the floor of 80 % of the size, below the size for any non-empty stack |
| MemoryStacks.Arranged | MemoryController.js:223-225 | the sort runs only when the first item carries an access time; either way the items are a permutation of the originals |
| MemoryStacks.OptimizeDataAsWritten | MemoryController.js:221-227 | the trim as written keeps the last `floor(0.8 n)` items of the arranged stack, or all of them when that count is 0 |
| MemoryStacks.OptimizeData | MemoryController.js:218-233 | the corrected trim keeps exactly `floor(0.8 n)` items drawn from the stack: the last ones of the arranged order, still newest first when sorted by access time |
| MemoryStacks.TrimsAgree | MemoryController.js:221-227 | on every stack of two items or more the written and corrected trims leave the same contents; they differ only where `floor(0.8 n) = 0` |
| MemoryStacks.TrimDropsNewest | MemoryController.js:223-227 | after the newest-first sort, every item the trim drops is at least as new as every item it keeps |
| MemoryStacks.TrimCounterexamples | MemoryController.js:221-227 | on one item the written trim keeps it although `floor(0.8) = 0`, while the corrected trim empties the stack; on two items with distinct access times both keep the older one |
| MemoryStacks.TrimConverges | MemoryController.js:218-233 | trimming strictly shrinks a non-empty stack, so at most `n` repeated trims empty it |
| MemoryStacks.Revalidate | MemoryController.js:151-161 | recovery never lengthens a stack |
| MemoryStacks.RevalidateFilters | MemoryController.js:151-161 | recovery keeps exactly the items that still validate, with their multiplicities, and nothing else |
| MemoryStacks.RevalidateAppend | MemoryController.js:157-161 | recovering a concatenation is recovering each part and concatenating, so the kept items stay in their original order |
| MemoryStacks.RevalidateKeepsValid | MemoryController.js:157-161 | recovering a stack whose items all validate leaves it unchanged, order included |
| MemoryMonitor.NewMonitor | MemoryMonitor.js:4-8 | a new registry has no records, no snapshots and no scheduled task |
| MemoryMonitor.Bump | MemoryMonitor.js:41-45 | counting an operation raises its counter by one, creating the counter for an unseen kind, and leaves every other counter alone |
| MemoryMonitor.AverageOperationTime | MemoryMonitor.js:49-54 | the average is total time over operation count once an operation has been recorded |
| MemoryMonitor.InitializeStackMonitoring | MemoryMonitor.js:10-35 | the stack gets a fresh consistent record: exactly the four standard counters, all at 0; operation count and total time 0; sizes 0; health healthy, checked at `now`, with error rate 0 and no locks. Other records and the snapshots are untouched |
| MemoryMonitor.RecordOperation | MemoryMonitor.js:37-55 | an unknown id changes nothing; otherwise the named counter and the operation count each rise by one and the duration is added to the total time, with nothing else changed |
| MemoryMonitor.UpdateMemoryStats | MemoryMonitor.js:57-63 | an unknown id changes nothing; otherwise the current size is set and the peak becomes the larger of the old peak and the new size |
| MemoryMonitor.Retain | MemoryMonitor.js:78-83 | the new snapshot is the last entry; below 100 entries it is appended, at 100 the oldest entry is dropped |
| MemoryMonitor.TakeSnapshot | MemoryMonitor.js:65-84 | an unknown id changes nothing; otherwise the stack's current record is stamped and appended to its history, which stays within 100 entries |
| MemoryMonitor.SnapshotHistory | MemoryMonitor.js:65-84 | a snapshot of a recorded stack extends that stack's history by the retention rule and leaves every other history as it was |
| MemoryMonitor.ErrorRate | MemoryMonitor.js:93-94 | the error rate is the error count over the operation count, with a denominator of at least 1 |
| MemoryMonitor.Classify | MemoryMonitor.js:96-105 | critical exactly when errors exceed a tenth of the operations; healthy exactly when neither the error, fill-ratio nor lock-count condition holds |
| MemoryMonitor.GetStackHealth | MemoryMonitor.js:86-111 | an unknown id yields nothing; otherwise the stored health becomes the classification, error rate and check time, is returned, and nothing else in the record changes |
| MemoryMonitor.GetStackStatistics | MemoryMonitor.js:113-115 | returns the stack's record exactly when there is one |
| MemoryMonitor.GetStackHistory | MemoryMonitor.js:117-123 | returns exactly the snapshots taken within `range` of `now`, each as often as the history holds it; nothing for a stack without history |
| MemoryMonitor.Recent | MemoryMonitor.js:120-122 | the filter keeps exactly the entries within range and never lengthens the history |
| MemoryMonitor.RecentFilters | MemoryMonitor.js:120-122 | the filter keeps each entry within range as often as the history holds it, and no other entry |
| MemoryMonitor.RecentAppend | MemoryMonitor.js:120-122 | filtering a concatenation is filtering each part and concatenating, so the kept entries stay oldest first |
| MemoryMonitor.RecentKeepsAll | MemoryMonitor.js:120-122 | when every entry is within range, the filter returns the history unchanged, order included |
| MemoryMonitor.GenerateReport | MemoryMonitor.js:125-143 | an unknown id yields nothing; otherwise the report carries the freshly computed health and the updated record, with the average operation time as the exact quotient of total time over operation count, and the registry changes exactly as `getStackHealth` changes it |
| MemoryMonitor.StartMonitoringAsWritten | MemoryMonitor.js:145-164 | starting schedules one more periodic task without cancelling any earlier one |
| MemoryMonitor.StartMonitoring | MemoryMonitor.js:145-164 | the corrected start leaves exactly one task of its own running, cancelling any previous one |
| MemoryMonitor.StopMonitoring | MemoryMonitor.js:166-171 | stopping cancels the periodic task whose handle is held, if any, and clears the handle |
| MemoryMonitor.OperationsKeepGood | MemoryMonitor.js:10-143 | every registry operation keeps every record consistent and every history within 100 entries |
| MemoryMonitor.RecordKeepsGood | MemoryMonitor.js:37-55 | recording an operation keeps the operation count equal to the sum of the counters |
| MemoryMonitor.UpdateKeepsGood | MemoryMonitor.js:57-63 | a size update keeps the peak at or above the current size |
| MemoryMonitor.HealthKeepsGood | MemoryMonitor.js:86-111 | a health check keeps the registry invariant |
| MemoryMonitor.SnapshotKeepsGood | MemoryMonitor.js:65-84 | a snapshot keeps every history within 100 entries |
| MemoryMonitor.PeakMonotone | MemoryMonitor.js:10-63 | a size update never lowers a peak, and operations on one stack leave other stacks' peaks alone; the one exception is re-initialising the same stack, which resets its peak to 0 |
| MemoryMonitor.LockBranchUnreachable | MemoryMonitor.js:96-105 | on a consistent record the lock-count branch never fires: warning means exactly "not critical and over 90 % of peak" |
| MemoryMonitor.NewPeakReadsWarning | MemoryMonitor.js:98-100 | a size that sets a new peak reads as warning at the next health check, since it is 100 % of the peak |
| MemoryMonitor.FreshRecordHealthy | MemoryMonitor.js:10-35 | a freshly initialised record checks as healthy with error rate 0 |
| MemoryMonitor.RetainAllKeepsNewest | MemoryMonitor.js:78-83 | a history fed any number of snapshots holds exactly the newest 100 of all it has seen, oldest first |
| MemoryMonitor.TakeSnapshotsRetains | MemoryMonitor.js:65-84 | repeated `takeSnapshot` calls extend the history by applying the retention rule once per snapshot, in order |
| MemoryMonitor.SnapshotsFifo | MemoryMonitor.js:65-84 | after any number of snapshots, a stack's history is the last 100 of its old history followed by the new snapshots |
| MemoryMonitor.RestartLeaksTimer | MemoryMonitor.js:145-171 | starting twice and stopping once, as written, leaves one task running that nothing can cancel |
| MemoryMonitor.RestartReplaces | MemoryMonitor.js:145-171 | with the corrected start, any number of restarts followed by one stop leaves no task of its own running |
| MemoryController.InitializeAll | MemoryController.js:23-25 | ids 1 to 8 get fresh records, other records are kept, and snapshots and the periodic-task handle are untouched |
| MemoryController.NewController | MemoryController.js:5-29 | eight empty, unlocked, unused stacks with ids 1 to 8, kind `F` exactly for odd ids, a fresh record for each, and one more monitoring task running, none cancelled |
| MemoryController.IndexOf | MemoryController.js:174 | finds the first stack with the given id, and nothing exactly when no stack has it |
| MemoryController.IndexOfWellFormed | MemoryController.js:6-7 | in the constructor's layout id `k` sits at position `k - 1`, and ids outside 1 to 8 are invalid |
| MemoryController.SelectFrom | MemoryController.js:78-84 | the choice is an eligible stack of least size, the first such in order, and there is none exactly when no stack is eligible |
| MemoryController.FindOptimalStack | MemoryController.js:76-91 | the selected stack matches the payload's kind, is unlocked, not near capacity and under the error threshold, holds no more items than any other eligible stack, and exists exactly when some stack is eligible |
| MemoryController.LockStack | MemoryController.js:173-193 | unknown id: invalid-id error; held lease: already-locked error, nothing changed; otherwise that stack alone becomes locked with a pending timer |
| MemoryController.UnlockStack | MemoryController.js:195-206 | unknown id: invalid-id error; otherwise that stack alone ends unlocked with no timer, whether it was locked or not |
| MemoryController.LockTimeoutFires | MemoryController.js:183-190 | a pending timer on a held lease force-releases it, adds one error to the stack and records an `errors` operation; on a released lease, or with no pending timer, nothing observable changes |
| MemoryController.OptimizeStack | MemoryController.js:218-233 | only the trimmed stack changes, only in its contents, which are the written trim's (all items kept when `floor(0.8 n) = 0`) and, for two items or more, the corrected trim's; the registry records one optimisation and then the new size |
| MemoryController.BalanceFrom | MemoryController.js:209-215 | each stack over the maximum size from the given position on is trimmed as written; every other stack is unchanged; no record or history is added or removed |
| MemoryController.BalanceMemoryStacks | MemoryController.js:208-216 | exactly the stacks over the maximum size are trimmed as written, each on its own; the rest are unchanged; no record or history is added or removed |
| MemoryController.BalanceRecords | MemoryController.js:208-232 | in the constructor's layout, each stack over the maximum size from the given position on (from position 0 for `balanceMemoryStacks`) has one optimisation recorded and then its trimmed size; every other stack's record is unchanged |
| MemoryController.BalanceIdle | MemoryController.js:208-216 | when no stack exceeds the maximum size, balancing changes nothing |
| MemoryController.TargetsFrom | MemoryController.js:123-127 | every redistribution target is another stack of the same kind that is not near capacity, listed in pool order |
| MemoryController.TargetsFromComplete | MemoryController.js:123-127 | every such stack is among the targets |
| MemoryController.RedistributeThrowsIffNoTarget | MemoryController.js:123-131 | redistribution throws exactly when no other stack of the same kind is below capacity |
| MemoryController.MoveFrontConserves | MemoryController.js:136-138 | moving items from the source to the targets creates and loses no item and keeps every stack's identity |
| MemoryController.MoveFrontSource | MemoryController.js:136-137 | the source loses exactly its first `k * per` items, in order |
| MemoryController.MoveFrontUntouched | MemoryController.js:136-138 | a stack that is neither the source nor a target is not changed |
| MemoryController.MoveFrontSlice | MemoryController.js:136-138 | the `m`-th target receives the `m`-th block of `per` items from the front of the source, appended after its own items |
| MemoryController.OffsetIsProduct | MemoryController.js:134-137 | the `m`-th block starts at item `m * per` |
| MemoryController.ShareCount | MemoryController.js:133 | the number of items to move is the floor of 30 % of the source's size |
| MemoryController.PerTarget | MemoryController.js:134 | each target's share is the floor of that number over the number of targets |
| MemoryController.RedistributeData | MemoryController.js:122-145 | throws and changes nothing exactly when there is no target; otherwise the item total and the layout are kept and the source loses its first `k * floor(floor(0.3 n) / k)` items |
| MemoryController.RedistributeShares | MemoryController.js:133-138 | target number `m` ends with its old items followed by the `m`-th block of the source's front items |
| MemoryController.RedistributeLeavesOthers | MemoryController.js:136-138 | stacks that are neither source nor target are unchanged |
| MemoryController.RecordSizesSets | MemoryController.js:136-142 | with distinct target ids, each target's record gets exactly one size update, with its size after the loop, and no other record changes |
| MemoryController.RedistributeRecordsSizes | MemoryController.js:136-144 | in the constructor's layout, the source and each target get their record updated with the size they end with; every other record, the set of records and the histories are unchanged |
| MemoryController.HandleCriticalMemory | MemoryController.js:108-120 | critical-memory handling keeps the layout and never increases the number of items |
| MemoryController.HandleStackFailure | MemoryController.js:147-171 | only the failed stack changes: its counts return to zero, it keeps its items that still validate, and the registry records its new size |
| MemoryController.OnWriteError | MemoryController.js:63-70 | a failed write adds one error to its stack only and leaves the registry alone; reaching the threshold of 5 recovers that stack instead, and the registry records only its new size |
| MemoryController.Release | MemoryController.js:71-73 | the `finally` block releases the stack's lease, changes nothing else, and passes the pending error on |
| MemoryController.WriteCacheableData | MemoryController.js:31-43 | an invalid payload, and a payload with no eligible stack, are rejected with the matching error and change nothing |
| MemoryController.FirstFree | MemoryController.js:257 | finds the first unlocked stack of a kind, and nothing exactly when there is none |
| MemoryController.TouchFirstUnlocked | MemoryController.js:256-276 | a read touches the access time and count of the first unlocked stack of its kind, and changes nothing when there is none |
| MemoryController.FirstOfKind | MemoryController.js:248 | finds the first stack of a kind, and nothing exactly when there is none |
| MemoryController.TouchKeepsFirstOfKind | MemoryController.js:243-251 | touching a stack during a read does not change which stack the read is recorded against |
| MemoryController.ProcessReadData | MemoryController.js:235-254 | throws exactly on an invalid payload; otherwise returns the payload, touches the first unlocked stack of its kind and records a read on the first stack of that kind |
| MemoryController.HealthCheckRound | MemoryController.js:279-297 | a health-check round changes no stack and no statistics record |
| MemoryController.HealthCheckSnapshots | MemoryController.js:280-296 | in the constructor's layout, each stack from the starting position on that has a record gets one snapshot of it, stamped `now`, under the 100-entry retention; every other history is unchanged |
| PoolProperties.NewControllerSound | MemoryController.js:5-29 | a new pool satisfies the pool invariant |
| PoolProperties.InitializeAllKeepsGood | MemoryController.js:23-25 | initialising the eight records keeps the registry invariant |
| PoolProperties.WriteBodyAppends | MemoryController.js:45-62 | on an eligible stack the `try` block never reaches critical handling or a trim, appends the payload and records the write and the new size |
| PoolProperties.WriteAppends | MemoryController.js:31-74 | a valid write to the selected stack succeeds, appends the payload to that stack alone, releases its lease, and records one write and the new size |
| PoolProperties.FailedWriteReleases | MemoryController.js:63-73 | after a failed write the caller sees the original error, the lease is released, and the stack has one more error with the registry unchanged or, at the threshold, is recovered with its new size recorded |
| PoolProperties.WriteKeepsSound | MemoryController.js:31-74 | a write throws exactly when the payload is invalid or no stack is eligible, adds exactly one item when it succeeds, and keeps the pool invariant |
| PoolProperties.LockTwiceFails | MemoryController.js:177-179 | locking a stack whose lease is held fails with already-locked and changes nothing |
| PoolProperties.LockUnlockRestores | MemoryController.js:173-206 | locking and then unlocking a free stack returns the pool to exactly its previous state |
| PoolProperties.UnlockCancelsTimeout | MemoryController.js:195-202 | after an unlock, the lease timer can no longer fire to any effect |
| PoolProperties.TimeoutForcesRelease | MemoryController.js:183-190 | a lease never released is force-released by its timer with one error counted and recorded; the timer fires only once and the stack can be locked again |
| PoolProperties.FireAfterLock | MemoryController.js:181-190 | a timer firing on the lease it guards frees the stack, counts one error and records an `errors` operation |
| PoolProperties.ExpiredIsIdle | MemoryController.js:183-190 | once a timer has fired and the stack is free, firing again changes nothing and the stack can be locked |
| PoolProperties.LockKeepsSound | MemoryController.js:173-193 | locking keeps the pool invariant: the new lease has a timer |
| PoolProperties.UnlockKeepsSound | MemoryController.js:195-206 | unlocking keeps the pool invariant |
| PoolProperties.TimeoutKeepsSound | MemoryController.js:183-190 | a timer firing keeps the pool invariant |
| PoolProperties.ReadKeepsSound | MemoryController.js:235-276 | a read keeps the pool invariant |
| PoolProperties.TouchKeepsLayout | MemoryController.js:256-276 | touching a stack on a read keeps the layout, the leases and the sizes |
| PoolProperties.HealthCheckKeepsGood | MemoryController.js:278-299 | a health-check round keeps the registry invariant |
| PoolProperties.StepKeepsSound | MemoryController.js:31-299 | each public operation (write, read, lock, unlock, timeout, health check, report) keeps the pool invariant |
| PoolProperties.RunKeepsSound | MemoryController.js:31-299 | any sequence of public operations on a sound pool keeps it sound: layout, a timer behind every held lease, no stack above 1000 items, a consistent registry |
| PoolProperties.HealthLeaseConditionUnreachable | MemoryController.js:288-290 | in every reachable pool no stack is locked without a timer, none exceeds 1000 items, and a stack is flagged unhealthy exactly for its error rate or idle time |

## Left out

- Logging: `Logger` calls only write text, so they are not modelled.
- Clocks: `Date.now()` becomes a `now` parameter. Every duration a call measures becomes one `elapsed` parameter, so two clock readings in one call are a single `now`.
- Timers: `setTimeout` and `setInterval` callbacks are operations the caller applies (`LockTimeoutFires`, `HealthCheckRound`); when and how often they run is not modelled. The monitoring task's own body recomputes and stores each record's health, takes a snapshot and logs. Its effect on the registry is covered by `GetStackHealth` and `TakeSnapshot`.
- Concurrency: `async`/`await` interleaving is not modelled. Each public operation runs to completion. As a result the `catch` block of `writeCacheableData` cannot be reached from a selected stack, so `PoolProperties.FailedWriteReleases` states it on its own.
- Floating point: quotients are integer pairs, and `toFixed(2)` and the `'ms'`/`'%'` text of the report are left out. `Report.averageOperationTime` is the exact quotient, as `MemoryMonitor.GenerateReport` states.
- `lastOptimizationTime` is written only by initialisation, so it is not part of the record.
- Serialisation: `JSON.stringify` validity, and the deep copy of a snapshot, are abstracted. A payload records whether it serialises, and a snapshot holds the record value.
- Operation kinds: a kind named like an `Object.prototype` member (`toString`) would hit the `in` test of `recordOperation` differently in JavaScript. The model treats every name as an own key.
- Missing access times: when some items lack `lastAccess`, the JavaScript comparator yields `NaN` and the sort order is engine-defined. The model reads a missing access time as 0.
- MemoryController.HandleStackFailure: the "Stack recovery failed" branch is not modelled. Its `try` block cannot throw once validation is total.
- MemoryController.HandleCriticalMemory: the contract states only that the layout is kept and no item is created. The effect of each step is stated by `OptimizeStack` and `RedistributeData`.
- MemoryController.WriteCacheableData: its own contract covers only the two rejections. Success is stated by `PoolProperties.WriteAppends` and `PoolProperties.WriteKeepsSound`; failure by `PoolProperties.FailedWriteReleases`.
- MemoryController.RecordSizes: its own contract states only that the registry's keys and snapshots are kept. The sizes it records are stated by `MemoryController.RecordSizesSets`.
- MemoryController.BalanceFrom: its contract states only that the record keys and histories are kept. The records of the trimmed stacks are stated by `MemoryController.BalanceRecords` for a pool in the constructor's layout.
- MemoryController.BalanceMemoryStacks: as for `BalanceFrom`; `MemoryController.BalanceRecords` from position 0 states its records.
- MemoryController.RedistributeData: its contract does not state the registry updates of lines 141 and 144. `MemoryController.RedistributeRecordsSizes` states them for every stack of a pool in the constructor's layout.
- MemoryController.HealthCheckRound: its contract does not state the snapshots of line 296. `MemoryController.HealthCheckSnapshots` states them for a pool in the constructor's layout.
- MemoryStacks.SortMru: the contract does not promise that items with equal access times keep their relative order, as the engine's stable sort does; nothing in the model depends on that order.
- Other files: `VirtualCache.js`, `SocketController.js`, `NodeFragment.js`, `Logger.js`, `index.js` and `test.js` are not part of this model.

## Findings

| source | as written | input that shows it | evidently intended | confidence | as-written member | corrected member |
|---|---|---|---|---|---|---|
| MemoryController.js:221-227 | `slice(-itemsToKeep)` with `itemsToKeep == 0` is `slice(0)` and keeps every item | a stack of one item: `floor(0.8 * 1) = 0`, yet the item stays | keep exactly `floor(0.8 n)` items | high for the arithmetic; the pool keeps the written trim, and it only trims stacks above 900 items, where the two agree; not executed | MemoryStacks.OptimizeDataAsWritten (MemoryStacks.TrimCounterexamples) | MemoryStacks.OptimizeData (MemoryStacks.TrimConverges) |
| MemoryMonitor.js:145-146 | `startMonitoring` overwrites `monitoringInterval` without clearing the running interval | start, start, stop: one periodic task keeps running and its handle is lost | a restart replaces the running task | medium; every `MemoryController` construction calls `startMonitoring` on the shared registry, so a second construction leaks the first task; not executed | MemoryMonitor.RestartLeaksTimer | MemoryMonitor.RestartReplaces (the constructor, `NewController`, keeps the written start) |

=== FILE: common.dfy ===
/** Small shared vocabulary: an optional value, standing in for JavaScript's
    `undefined`/`null` results. */
module Common {

  datatype Option<+T> = None | Some(value: T)
}

=== FILE: controller.dfy ===
/** The pool of memory stacks (MemoryController.js): construction, payload
    routing to the least-loaded eligible stack, the per-stack lease with its
    timeout, the write path with its error threshold and recovery, and the
    operations that trim or move a stack's contents. Every operation takes
    the pool and the statistics registry and returns both; an operation that
    throws in JavaScript returns the state it leaves behind together with the
    error. `now` stands for `Date.now()` and `elapsed` for every duration the
    call records. */
module MemoryController {
  import opened Common
  import opened Payloads
  import opened MemoryStacks
  import MM = MemoryMonitor

  /** The number of stacks (MemoryController.js:6). */
  const StackCount: nat := 8
  /** The idle time past which the health check reports a stack. */
  const IdleLimit: nat := 300000

  datatype Controller = Controller(stacks: seq<Stack>, monitor: MM.Monitor)

  /** The errors the pool throws, by their messages: 'Invalid data format',
      'No available memory stack', 'Invalid stack ID', 'Stack is already
      locked', 'No available stacks for redistribution'. */
  datatype Error =
    | InvalidDataFormat
    | NoAvailableStack
    | InvalidStackId
    | AlreadyLocked
    | NoRedistributionTarget

  /** The state an operation leaves and the error it threw, if any. */
  datatype Outcome = Outcome(state: Controller, thrown: Option<Error>)

  /** The result of a read: the payload handed back, or the error thrown. */
  datatype ReadOutcome = ReadOutcome(state: Controller, value: Option<Payload>, thrown: Option<Error>)

  // ---------------------------------------------------------------------------
  // Shape of the pool

  /** The type of the stack at position `i`: even positions (odd ids) hold
      functions. */
  function KindAt(i: nat): (k: Kind)
    ensures k == F <==> (i + 1) % 2 == 1
  {
    if i % 2 == 0 then F else S
  }

  /** The pool as the constructor lays it out: eight stacks with ids 1..8,
      alternating `'F'` and `'S'`. */
  ghost predicate WellFormed(stacks: seq<Stack>) {
    && |stacks| == StackCount
    && forall i :: 0 <= i < |stacks| ==> stacks[i].id == i + 1 && stacks[i].kind == KindAt(i)
  }

  /** Two pools with the same stacks in the same places. */
  ghost predicate SameShape(a: seq<Stack>, b: seq<Stack>) {
    && |a| == |b|
    && forall i :: 0 <= i < |a| ==> a[i].id == b[i].id && a[i].kind == b[i].kind
  }

  /** A held lease always has a timer handle, and a pending timer always
      guards a held lease. */
  ghost predicate LeaseSound(s: Stack) {
    && (s.locked ==> s.lockTimeout != Unset)
    && (s.lockTimeout == Pending ==> s.locked)
  }

  /** Items held by the whole pool. */
  function TotalItems(stacks: seq<Stack>): nat {
    if stacks == [] then 0 else |stacks[0].data| + TotalItems(stacks[1..])
  }

  lemma {:induction false} TotalItemsUpdate(stacks: seq<Stack>, i: nat, s: Stack)
    requires i < |stacks|
    ensures TotalItems(stacks[i := s]) == TotalItems(stacks) - |stacks[i].data| + |s.data|
    decreases |stacks|
  {
    if i > 0 {
      TotalItemsUpdate(stacks[1..], i - 1, s);
      assert stacks[i := s][1..] == stacks[1..][i - 1 := s];
    }
  }

  // ---------------------------------------------------------------------------
  // Construction

  function NewStack(i: nat, now: int): Stack {
    Stack(i + 1, KindAt(i), [], now, false, Unset, 0, 0)
  }

  /** `initializeStackMonitoring` for ids `1..n`, in order. */
  function InitializeAll(m: MM.Monitor, n: nat, now: int): (r: MM.Monitor)
    ensures forall id :: id in r.statistics <==> id in m.statistics || 1 <= id <= n
    ensures forall id :: 1 <= id <= n ==> r.statistics[id] == MM.InitialStats(now)
    ensures forall id :: id in m.statistics && !(1 <= id <= n) ==> r.statistics[id] == m.statistics[id]
    ensures r.snapshots == m.snapshots && r.handle == m.handle && r.leaked == m.leaked
  {
    if n == 0 then m else MM.InitializeStackMonitoring(InitializeAll(m, n - 1, now), n, now)
  }

  /** The constructor (MemoryController.js:5-29): eight empty, unlocked
      stacks with zero counters, a fresh statistics record for each id, and
      one more monitoring task started, as written: a task already running
      on the shared registry is not cancelled. The health-check interval is scheduling
      only and has no state here. */
  function NewController(m: MM.Monitor, now: int): (c: Controller)
    ensures WellFormed(c.stacks)
    ensures forall i :: 0 <= i < |c.stacks| ==>
      var s := c.stacks[i];
      && s.data == [] && !s.locked && s.lockTimeout == Unset
      && s.accessCount == 0 && s.errorCount == 0 && s.lastAccess == now
    ensures forall i :: 0 <= i < |c.stacks| ==> (c.stacks[i].kind == F <==> c.stacks[i].id % 2 == 1)
    ensures forall id :: 1 <= id <= StackCount ==>
      id in c.monitor.statistics && c.monitor.statistics[id] == MM.InitialStats(now)
    ensures c.monitor.handle && MM.LiveTimers(c.monitor) == MM.LiveTimers(m) + 1
  {
    var stacks := seq(StackCount, i requires 0 <= i < StackCount => NewStack(i, now));
    assert forall i :: 0 <= i < |stacks| ==> stacks[i] == NewStack(i, now);
    var registry := InitializeAll(m, |stacks|, now);
    Controller(stacks, MM.StartMonitoringAsWritten(registry))
  }

  // ---------------------------------------------------------------------------
  // Looking stacks up

  /** `memoryStacks.find(s => s.id === id)`, as a position. */
  function IndexOf(stacks: seq<Stack>, id: int): (r: Option<nat>)
    ensures r.Some? ==> r.value < |stacks| && stacks[r.value].id == id
    ensures r.Some? ==> forall j :: 0 <= j < r.value ==> stacks[j].id != id
    ensures r.None? <==> forall j :: 0 <= j < |stacks| ==> stacks[j].id != id
    decreases |stacks|
  {
    if stacks == [] then None
    else if stacks[0].id == id then Some(0)
    else match IndexOf(stacks[1..], id)
      case None => None
      case Some(j) => Some(j + 1)
  }

  lemma IndexOfWellFormed(stacks: seq<Stack>, id: int)
    requires WellFormed(stacks)
    ensures 1 <= id <= StackCount ==> IndexOf(stacks, id) == Some(id - 1)
    ensures !(1 <= id <= StackCount) ==> IndexOf(stacks, id).None?
  {
    if 1 <= id <= StackCount {
      assert stacks[id - 1].id == id;
    }
  }

  // ---------------------------------------------------------------------------
  // Selection

  /** The filter of `findOptimalStack` (MemoryController.js:79-83). */
  predicate Eligible(s: Stack, k: Kind) {
    && s.kind == k
    && !s.locked
    && !IsStackNearCapacity(s)
    && s.errorCount < MaxErrorThreshold
  }

  /** The first eligible stack of fewest items at or after position `from`:
      the head of the stable sort by size. */
  function SelectFrom(stacks: seq<Stack>, k: Kind, from: nat): (r: Option<nat>)
    requires from <= |stacks|
    ensures r.Some? ==> from <= r.value < |stacks| && Eligible(stacks[r.value], k)
    ensures r.Some? ==> forall j :: from <= j < |stacks| && Eligible(stacks[j], k) ==>
      |stacks[r.value].data| <= |stacks[j].data|
    ensures r.Some? ==> forall j :: from <= j < r.value && Eligible(stacks[j], k) ==>
      |stacks[r.value].data| < |stacks[j].data|
    ensures r.None? <==> forall j :: from <= j < |stacks| ==> !Eligible(stacks[j], k)
    decreases |stacks| - from
  {
    if from == |stacks| then None
    else
      var rest := SelectFrom(stacks, k, from + 1);
      if !Eligible(stacks[from], k) then rest
      else if rest.Some? && |stacks[rest.value].data| < |stacks[from].data| then rest
      else Some(from)
  }

  /** `findOptimalStack` (MemoryController.js:76-91): among the unlocked
      stacks of the payload's type that are neither near capacity nor at the
      error threshold, one with fewest items, the earliest on a tie; nothing
      when there is no such stack. */
  function FindOptimalStack(stacks: seq<Stack>, p: Payload): (r: Option<nat>)
    ensures r.Some? ==> r.value < |stacks| && Eligible(stacks[r.value], KindOf(p))
    ensures r.Some? ==> forall j :: 0 <= j < |stacks| && Eligible(stacks[j], KindOf(p)) ==>
      |stacks[r.value].data| <= |stacks[j].data|
    ensures r.Some? ==> forall j :: 0 <= j < r.value && Eligible(stacks[j], KindOf(p)) ==>
      |stacks[r.value].data| < |stacks[j].data|
    ensures r.None? <==> forall j :: 0 <= j < |stacks| ==> !Eligible(stacks[j], KindOf(p))
  {
    SelectFrom(stacks, KindOf(p), 0)
  }

  // ---------------------------------------------------------------------------
  // Leases

  /** `lockStack` (MemoryController.js:173-193): an unknown id and a held
      lease both throw and change nothing; otherwise the stack is locked and
      its timeout timer is pending. */
  function LockStack(c: Controller, id: int): (r: Outcome)
    ensures IndexOf(c.stacks, id).None? ==> r == Outcome(c, Some(InvalidStackId))
    ensures IndexOf(c.stacks, id).Some? && c.stacks[IndexOf(c.stacks, id).value].locked ==>
      r == Outcome(c, Some(AlreadyLocked))
    ensures IndexOf(c.stacks, id).Some? && !c.stacks[IndexOf(c.stacks, id).value].locked ==>
      var i := IndexOf(c.stacks, id).value;
      && r.thrown.None?
      && |r.state.stacks| == |c.stacks|
      && r.state.stacks[i].locked && r.state.stacks[i].lockTimeout == Pending
      && r.state.stacks[i] == c.stacks[i].(locked := true, lockTimeout := Pending)
      && (forall j :: 0 <= j < |c.stacks| && j != i ==> r.state.stacks[j] == c.stacks[j])
      && r.state.monitor == c.monitor
  {
    match IndexOf(c.stacks, id)
    case None => Outcome(c, Some(InvalidStackId))
    case Some(i) =>
      if c.stacks[i].locked then Outcome(c, Some(AlreadyLocked))
      else
        var s := c.stacks[i].(locked := true, lockTimeout := Pending);
        Outcome(c.(stacks := c.stacks[i := s]), None)
  }

  /** `unlockStack` (MemoryController.js:195-206): an unknown id throws;
      otherwise any pending timer is cancelled and the lease is released,
      whether or not it was held. */
  function UnlockStack(c: Controller, id: int): (r: Outcome)
    ensures IndexOf(c.stacks, id).None? ==> r == Outcome(c, Some(InvalidStackId))
    ensures IndexOf(c.stacks, id).Some? ==>
      var i := IndexOf(c.stacks, id).value;
      && r.thrown.None?
      && |r.state.stacks| == |c.stacks|
      && !r.state.stacks[i].locked && r.state.stacks[i].lockTimeout == Unset
      && r.state.stacks[i] == c.stacks[i].(locked := false, lockTimeout := Unset)
      && (forall j :: 0 <= j < |c.stacks| && j != i ==> r.state.stacks[j] == c.stacks[j])
      && r.state.monitor == c.monitor
  {
    match IndexOf(c.stacks, id)
    case None => Outcome(c, Some(InvalidStackId))
    case Some(i) =>
      var s := c.stacks[i].(locked := false, lockTimeout := Unset);
      Outcome(c.(stacks := c.stacks[i := s]), None)
  }

  /** The lock timer of stack `id` fires (MemoryController.js:183-190). Only a
      pending timer can fire. If the lease is still held it is forced free,
      the stack's error count rises by one and an `errors` operation of the
      timeout's length is recorded; otherwise the callback does nothing. */
  function LockTimeoutFires(c: Controller, id: int): (r: Controller)
    ensures |r.stacks| == |c.stacks|
    ensures IndexOf(c.stacks, id).None? ==> r == c
    ensures IndexOf(c.stacks, id).Some? ==>
      var i := IndexOf(c.stacks, id).value;
      var s, s' := c.stacks[i], r.stacks[i];
      && (forall j :: 0 <= j < |c.stacks| && j != i ==> r.stacks[j] == c.stacks[j])
      && (s.lockTimeout != Pending ==> r == c)
      && (s.lockTimeout == Pending && s.locked ==>
            && !s'.locked && s'.errorCount == s.errorCount + 1
            && s' == s.(locked := false, errorCount := s.errorCount + 1, lockTimeout := Expired)
            && r.monitor == MM.RecordOperation(c.monitor, id, "errors", LockTimeoutDuration))
      && (s.lockTimeout == Pending && !s.locked ==>
            && s' == s.(lockTimeout := Expired)
            && r.monitor == c.monitor)
  {
    match IndexOf(c.stacks, id)
    case None => c
    case Some(i) =>
      var s := c.stacks[i];
      if s.lockTimeout != Pending then c
      else if s.locked then
        var s' := s.(locked := false, errorCount := s.errorCount + 1, lockTimeout := Expired);
        Controller(c.stacks[i := s'], MM.RecordOperation(c.monitor, id, "errors", LockTimeoutDuration))
      else
        c.(stacks := c.stacks[i := s.(lockTimeout := Expired)])
  }

  // ---------------------------------------------------------------------------
  // Trimming and moving contents

  /** `optimizeStack` (MemoryController.js:218-233), as written: the stack
      keeps the last `floor(0.8 n)` items of its arranged contents, or all of
      them when that count is 0, and the registry records an optimisation
      and then the new size. On two items or more this is the corrected
      trim. */
  function OptimizeStack(c: Controller, i: nat, elapsed: int): (r: Controller)
    requires i < |c.stacks|
    ensures |r.stacks| == |c.stacks|
    ensures r.stacks[i] == c.stacks[i].(data := OptimizeDataAsWritten(c.stacks[i].data))
    ensures |c.stacks[i].data| >= 2 ==> r.stacks[i].data == OptimizeData(c.stacks[i].data)
    ensures |r.stacks[i].data| <= |c.stacks[i].data|
    ensures forall j :: 0 <= j < |c.stacks| && j != i ==> r.stacks[j] == c.stacks[j]
    ensures
      var id := c.stacks[i].id;
      r.monitor == MM.UpdateMemoryStats(MM.RecordOperation(c.monitor, id, "optimizations", elapsed), id, |r.stacks[i].data|)
  {
    var s := c.stacks[i];
    assert |s.data| >= 2 ==> KeepCount(|s.data|) > 0;
    var s' := s.(data := OptimizeDataAsWritten(s.data));
    var m := MM.RecordOperation(c.monitor, s.id, "optimizations", elapsed);
    Controller(c.stacks[i := s'], MM.UpdateMemoryStats(m, s.id, |s'.data|))
  }

  /** The loop of `balanceMemoryStacks` from position `from` on. */
  function BalanceFrom(c: Controller, from: nat, elapsed: int): (r: Controller)
    requires from <= |c.stacks|
    ensures |r.stacks| == |c.stacks|
    ensures forall j :: 0 <= j < from ==> r.stacks[j] == c.stacks[j]
    ensures forall j :: from <= j < |c.stacks| && |c.stacks[j].data| > MaxStackSize ==>
      r.stacks[j] == c.stacks[j].(data := OptimizeDataAsWritten(c.stacks[j].data))
    ensures forall j :: from <= j < |c.stacks| && |c.stacks[j].data| <= MaxStackSize ==>
      r.stacks[j] == c.stacks[j]
    ensures r.monitor.statistics.Keys == c.monitor.statistics.Keys && r.monitor.snapshots == c.monitor.snapshots
    decreases |c.stacks| - from
  {
    if from == |c.stacks| then c
    else if |c.stacks[from].data| > MaxStackSize then
      BalanceFrom(OptimizeStack(c, from, elapsed), from + 1, elapsed)
    else BalanceFrom(c, from + 1, elapsed)
  }

  /** `balanceMemoryStacks` (MemoryController.js:208-216): every stack over
      the maximum size is trimmed once; every other stack is left alone. */
  function BalanceMemoryStacks(c: Controller, elapsed: int): (r: Controller)
    ensures |r.stacks| == |c.stacks|
    ensures forall j :: 0 <= j < |c.stacks| && |c.stacks[j].data| > MaxStackSize ==>
      r.stacks[j] == c.stacks[j].(data := OptimizeDataAsWritten(c.stacks[j].data))
    ensures forall j :: 0 <= j < |c.stacks| && |c.stacks[j].data| <= MaxStackSize ==>
      r.stacks[j] == c.stacks[j]
    ensures r.monitor.statistics.Keys == c.monitor.statistics.Keys && r.monitor.snapshots == c.monitor.snapshots
  {
    BalanceFrom(c, 0, elapsed)
  }

  /** The registry side of balancing (MemoryController.js:213 and 231-232):
      in the constructor's layout, every stack over the maximum size from
      `from` on has one optimisation recorded and then its trimmed size;
      every other stack's record is unchanged. */
  lemma {:induction false} BalanceRecords(c: Controller, from: nat, elapsed: int, j: nat)
    requires WellFormed(c.stacks) && from <= |c.stacks| && j < |c.stacks|
    ensures
      var r, id := BalanceFrom(c, from, elapsed), c.stacks[j].id;
      id in c.monitor.statistics ==>
        && (from <= j && |c.stacks[j].data| > MaxStackSize ==>
              r.monitor.statistics[id]
              == MM.UpdateMemoryStats(MM.RecordOperation(c.monitor, id, "optimizations", elapsed), id, |r.stacks[j].data|).statistics[id])
        && (!(from <= j && |c.stacks[j].data| > MaxStackSize) ==> r.monitor.statistics[id] == c.monitor.statistics[id])
    decreases |c.stacks| - from
  {
    if from < |c.stacks| {
      var c1 := BalanceStep(c, from, elapsed);
      var r := BalanceFrom(c1, from + 1, elapsed);
      BalanceRecords(c1, from + 1, elapsed, j);
      var id := c.stacks[j].id;
      if id in c.monitor.statistics {
        if j == from {
          assert r.monitor.statistics[id] == c1.monitor.statistics[id];
        } else {
          OptimizedRecordLocal(c1.monitor, c.monitor, id, elapsed, |r.stacks[j].data|);
        }
      }
    }
  }

  /** One step of balancing, spelled out: the stack at `from` is trimmed
      when over the maximum size, and only its own record changes. */
  lemma BalanceStep(c: Controller, from: nat, elapsed: int) returns (c1: Controller)
    requires WellFormed(c.stacks) && from < |c.stacks|
    ensures WellFormed(c1.stacks)
    ensures BalanceFrom(c, from, elapsed) == BalanceFrom(c1, from + 1, elapsed)
    ensures c1.stacks[from] == BalanceFrom(c, from, elapsed).stacks[from]
    ensures forall k :: 0 <= k < |c.stacks| && k != from ==> c1.stacks[k] == c.stacks[k]
    ensures c1.monitor.statistics.Keys == c.monitor.statistics.Keys
    ensures forall k :: k in c.monitor.statistics && k != c.stacks[from].id ==>
      c1.monitor.statistics[k] == c.monitor.statistics[k]
    ensures
      var id := c.stacks[from].id;
      id in c.monitor.statistics ==>
        c1.monitor.statistics[id]
        == if |c.stacks[from].data| > MaxStackSize
           then MM.UpdateMemoryStats(MM.RecordOperation(c.monitor, id, "optimizations", elapsed), id, |c1.stacks[from].data|).statistics[id]
           else c.monitor.statistics[id]
  {
    c1 := if |c.stacks[from].data| > MaxStackSize then OptimizeStack(c, from, elapsed) else c;
  }

  /** An optimisation record followed by a size update depends only on the
      stack's own record. */
  lemma OptimizedRecordLocal(m: MM.Monitor, m': MM.Monitor, id: int, elapsed: int, size: nat)
    requires id in m.statistics && id in m'.statistics && m.statistics[id] == m'.statistics[id]
    ensures MM.UpdateMemoryStats(MM.RecordOperation(m, id, "optimizations", elapsed), id, size).statistics[id]
         == MM.UpdateMemoryStats(MM.RecordOperation(m', id, "optimizations", elapsed), id, size).statistics[id]
  {
  }

  /** When no stack is over the maximum size, balancing changes nothing, not
      even the registry. */
  lemma {:induction false} BalanceIdle(c: Controller, from: nat, elapsed: int)
    requires from <= |c.stacks|
    requires forall j :: from <= j < |c.stacks| ==> |c.stacks[j].data| <= MaxStackSize
    ensures BalanceFrom(c, from, elapsed) == c
    decreases |c.stacks| - from
  {
    if from < |c.stacks| {
      BalanceIdle(c, from + 1, elapsed);
    }
  }

  /** The filter of `redistributeData` (MemoryController.js:123-127). */
  predicate IsTarget(stacks: seq<Stack>, src: nat, t: nat)
    requires src < |stacks| && t < |stacks|
  {
    && stacks[t].id != stacks[src].id
    && stacks[t].kind == stacks[src].kind
    && !IsStackNearCapacity(stacks[t])
  }

  /** The positions of the redistribution targets at or after `from`, in
      pool order. */
  function TargetsFrom(stacks: seq<Stack>, src: nat, from: nat): (r: seq<nat>)
    requires src < |stacks| && from <= |stacks|
    ensures forall a :: 0 <= a < |r| ==> from <= r[a] < |stacks| && IsTarget(stacks, src, r[a])
    ensures forall a, b :: 0 <= a < b < |r| ==> r[a] < r[b]
    decreases |stacks| - from
  {
    if from == |stacks| then []
    else
      var rest := TargetsFrom(stacks, src, from + 1);
      if IsTarget(stacks, src, from) then [from] + rest else rest
  }

  /** No target is missed: every stack at or after `from` that passes the
      filter is among the targets. */
  lemma {:induction false} TargetsFromComplete(stacks: seq<Stack>, src: nat, from: nat, t: nat)
    requires src < |stacks| && from <= t < |stacks| && IsTarget(stacks, src, t)
    ensures t in TargetsFrom(stacks, src, from)
    decreases t - from
  {
    if from < t {
      TargetsFromComplete(stacks, src, from + 1, t);
    }
  }

  /** `redistributeData` throws exactly when no other stack of the source's
      type is below the critical fill. */
  lemma RedistributeThrowsIffNoTarget(c: Controller, src: nat)
    requires src < |c.stacks|
    ensures RedistributeData(c, src).thrown.Some? <==>
      forall t :: 0 <= t < |c.stacks| ==> !IsTarget(c.stacks, src, t)
  {
    if t :| 0 <= t < |c.stacks| && IsTarget(c.stacks, src, t) {
      TargetsFromComplete(c.stacks, src, 0, t);
    }
  }

  /** The targets are distinct positions other than the source. */
  ghost predicate ValidTargets(stacks: seq<Stack>, src: nat, targets: seq<nat>) {
    && src < |stacks|
    && (forall a :: 0 <= a < |targets| ==> targets[a] < |stacks| && targets[a] != src)
    && (forall a, b :: 0 <= a < b < |targets| ==> targets[a] != targets[b])
  }

  lemma ValidTargetsTail(stacks: seq<Stack>, stacks': seq<Stack>, src: nat, targets: seq<nat>)
    requires ValidTargets(stacks, src, targets) && targets != [] && |stacks'| == |stacks|
    ensures ValidTargets(stacks', src, targets[1..])
    ensures targets[0] !in targets[1..]
  {
    forall a | 0 <= a < |targets| - 1
      ensures targets[1..][a] == targets[a + 1] != targets[0]
    {
    }
  }

  /** The moves of the loop of `redistributeData` (MemoryController.js:136-142):
      each target in turn takes the next `per` items from the front of the
      source and appends them. */
  function MoveFront(stacks: seq<Stack>, src: nat, targets: seq<nat>, per: nat): (r: seq<Stack>)
    requires ValidTargets(stacks, src, targets)
    requires Offset(|targets|, per) <= |stacks[src].data|
    ensures |r| == |stacks|
    decreases |targets|
  {
    if targets == [] then stacks
    else
      var s1 := MoveOnce(stacks, src, targets[0], per);
      ValidTargetsTail(stacks, s1, src, targets);
      OffsetStep(|targets| - 1, per);
      MoveFront(s1, src, targets[1..], per)
  }

  /** One round of that loop: `per` items from the front of the source to
      the end of target `t`. */
  function MoveOnce(stacks: seq<Stack>, src: nat, t: nat, per: nat): (r: seq<Stack>)
    requires src < |stacks| && t < |stacks| && t != src
    requires per <= |stacks[src].data|
  {
    var source, target := stacks[src], stacks[t];
    stacks[src := source.(data := source.data[per..])][t := target.(data := target.data + source.data[..per])]
  }

  /** The moves create and lose no item and keep every stack's identity. */
  lemma {:induction false} MoveFrontConserves(stacks: seq<Stack>, src: nat, targets: seq<nat>, per: nat)
    requires ValidTargets(stacks, src, targets)
    requires Offset(|targets|, per) <= |stacks[src].data|
    ensures TotalItems(MoveFront(stacks, src, targets, per)) == TotalItems(stacks)
    ensures SameShape(MoveFront(stacks, src, targets, per), stacks)
    decreases |targets|
  {
    if targets != [] {
      var t := targets[0];
      var source, target := stacks[src], stacks[t];
      var source' := source.(data := source.data[per..]);
      var target' := target.(data := target.data + source.data[..per]);
      TotalItemsUpdate(stacks, src, source');
      TotalItemsUpdate(stacks[src := source'], t, target');
      var s1 := MoveOnce(stacks, src, t, per);
      assert s1 == stacks[src := source'][t := target'];
      ValidTargetsTail(stacks, s1, src, targets);
      OffsetStep(|targets| - 1, per);
      MoveFrontConserves(s1, src, targets[1..], per);
    }
  }

  /** The registry side of that loop: each target's new size, in target
      order. A target receives items once only, so the size the loop records
      for it is its size after the whole loop. */
  function RecordSizes(m: MM.Monitor, stacks: seq<Stack>, targets: seq<nat>): (r: MM.Monitor)
    requires forall a :: 0 <= a < |targets| ==> targets[a] < |stacks|
    ensures r.snapshots == m.snapshots && r.statistics.Keys == m.statistics.Keys
    decreases |targets|
  {
    if targets == [] then m
    else
      var t := targets[0];
      RecordSizes(MM.UpdateMemoryStats(m, stacks[t].id, |stacks[t].data|), stacks, targets[1..])
  }

  /** When the targets' ids are distinct, each target's record receives
      exactly one size update, with the size it has in `stacks`, and every
      other record is unchanged. */
  lemma {:induction false} RecordSizesSets(m: MM.Monitor, stacks: seq<Stack>, targets: seq<nat>)
    requires forall a :: 0 <= a < |targets| ==> targets[a] < |stacks|
    requires forall a, b :: 0 <= a < b < |targets| ==> stacks[targets[a]].id != stacks[targets[b]].id
    ensures
      var r := RecordSizes(m, stacks, targets);
      forall a :: 0 <= a < |targets| && stacks[targets[a]].id in m.statistics ==>
        var id := stacks[targets[a]].id;
        r.statistics[id] == MM.UpdateMemoryStats(m, id, |stacks[targets[a]].data|).statistics[id]
    ensures
      var r := RecordSizes(m, stacks, targets);
      forall k :: k in m.statistics && (forall a :: 0 <= a < |targets| ==> stacks[targets[a]].id != k) ==>
        r.statistics[k] == m.statistics[k]
    decreases |targets|
  {
    if targets != [] {
      var t := targets[0];
      var m1 := MM.UpdateMemoryStats(m, stacks[t].id, |stacks[t].data|);
      var rest := targets[1..];
      assert forall a :: 1 <= a < |targets| ==> rest[a - 1] == targets[a];
      assert forall a :: 0 <= a < |rest| ==> stacks[rest[a]].id != stacks[t].id;
      RecordSizesSets(m1, stacks, rest);
    }
  }

  /** Where the `m`-th share of `per` items starts, as repeated addition so
      that the share proofs stay linear. */
  function Offset(m: nat, per: nat): nat {
    if m == 0 then 0 else Offset(m - 1, per) + per
  }

  lemma OffsetStep(m: nat, per: nat)
    ensures Offset(m + 1, per) == Offset(m, per) + per
  {
  }

  lemma {:induction false} OffsetMonotone(a: nat, b: nat, per: nat)
    requires a <= b
    ensures Offset(a, per) <= Offset(b, per)
    decreases b
  {
    if a < b {
      OffsetMonotone(a, b - 1, per);
    }
  }

  /** `Offset` is multiplication, so the contract of `PerTarget` below is
      that of the floored quotient. */
  lemma {:induction false} OffsetIsProduct(m: nat, per: nat)
    ensures Offset(m, per) == m * per
  {
    if m > 0 {
      OffsetIsProduct(m - 1, per);
    }
  }

  /** The `m`-th run of `per` items of `data`: what the `m`-th round of the
      move loop takes from the front of what the earlier rounds left. */
  function ShareAt(data: seq<Payload>, m: nat, per: nat): (r: seq<Payload>)
    requires Offset(m + 1, per) <= |data|
    ensures |r| == per
    decreases m
  {
    if m == 0 then data[..per] else ShareAt(data[per..], m - 1, per)
  }

  /** That run is the slice of `per` items at offset `m * per`. */
  lemma {:induction false} ShareAtSlice(data: seq<Payload>, m: nat, per: nat)
    requires Offset(m + 1, per) <= |data|
    ensures ShareAt(data, m, per) == data[Offset(m, per)..Offset(m, per) + per]
    decreases m
  {
    if m > 0 {
      ShareAtSlice(data[per..], m - 1, per);
      ShiftedSlice(data, per, Offset(m - 1, per));
    }
  }

  /** The move loop hands target number `m` the `m`-th run of `per` items
      from the front of the source. */
  lemma {:induction false} MoveFrontShares(stacks: seq<Stack>, src: nat, targets: seq<nat>, per: nat, m: nat)
    requires ValidTargets(stacks, src, targets)
    requires Offset(|targets|, per) <= |stacks[src].data|
    requires m < |targets|
    ensures Offset(m + 1, per) <= |stacks[src].data|
    ensures MoveFront(stacks, src, targets, per)[targets[m]]
         == stacks[targets[m]].(data := stacks[targets[m]].data + ShareAt(stacks[src].data, m, per))
    decreases |targets|
  {
    OffsetMonotone(m + 1, |targets|, per);
    if m == 0 {
      MoveFrontFirst(stacks, src, targets, per);
    } else {
      var s1 := MoveFrontLater(stacks, src, targets, per, m);
      MoveFrontShares(s1, src, targets[1..], per, m - 1);
    }
  }

  /** The first target receives the first `per` items. */
  lemma MoveFrontFirst(stacks: seq<Stack>, src: nat, targets: seq<nat>, per: nat)
    requires ValidTargets(stacks, src, targets)
    requires Offset(|targets|, per) <= |stacks[src].data|
    requires targets != []
    ensures per <= |stacks[src].data|
    ensures MoveFront(stacks, src, targets, per)[targets[0]]
         == stacks[targets[0]].(data := stacks[targets[0]].data + stacks[src].data[..per])
  {
    var t := targets[0];
    OffsetMonotone(1, |targets|, per);
    var s1 := MoveOnce(stacks, src, t, per);
    ValidTargetsTail(stacks, s1, src, targets);
    OffsetStep(|targets| - 1, per);
    MoveFrontUntouched(s1, src, targets[1..], per, t);
  }

  /** After the first round, a later target is untouched, the source has
      lost its first `per` items, and the rest of the loop is the loop over
      the remaining targets; the first round is `MoveOnce`. */
  lemma MoveFrontLater(stacks: seq<Stack>, src: nat, targets: seq<nat>, per: nat, m: nat)
      returns (s1: seq<Stack>)
    requires ValidTargets(stacks, src, targets)
    requires Offset(|targets|, per) <= |stacks[src].data|
    requires 0 < m < |targets|
    ensures ValidTargets(s1, src, targets[1..])
    ensures Offset(|targets| - 1, per) <= |s1[src].data|
    ensures per <= |stacks[src].data| && s1[src].data == stacks[src].data[per..]
    ensures targets[1..][m - 1] == targets[m] && s1[targets[m]] == stacks[targets[m]]
    ensures s1 == MoveOnce(stacks, src, targets[0], per)
  {
    OffsetMonotone(1, |targets|, per);
    s1 := MoveOnce(stacks, src, targets[0], per);
    ValidTargetsTail(stacks, s1, src, targets);
    OffsetStep(|targets| - 1, per);
  }

  /** A run of the sequence with its first `per` items removed is the run
      `per` places later in the original. */
  lemma ShiftedSlice(data: seq<Payload>, per: nat, lo: nat)
    requires per + lo + per <= |data|
    ensures data[per..][lo..lo + per] == data[per + lo..per + lo + per]
  {
  }

  lemma {:induction false} MoveFrontSource(stacks: seq<Stack>, src: nat, targets: seq<nat>, per: nat)
    requires ValidTargets(stacks, src, targets)
    requires Offset(|targets|, per) <= |stacks[src].data|
    ensures MoveFront(stacks, src, targets, per)[src]
         == stacks[src].(data := stacks[src].data[Offset(|targets|, per)..])
    decreases |targets|
  {
    if targets != [] {
      var s1 := MoveOnce(stacks, src, targets[0], per);
      ValidTargetsTail(stacks, s1, src, targets);
      OffsetStep(|targets| - 1, per);
      MoveFrontSource(s1, src, targets[1..], per);
    }
  }

  lemma {:induction false} MoveFrontUntouched(stacks: seq<Stack>, src: nat, targets: seq<nat>, per: nat, j: nat)
    requires ValidTargets(stacks, src, targets)
    requires Offset(|targets|, per) <= |stacks[src].data|
    requires j < |stacks| && j != src && j !in targets
    ensures MoveFront(stacks, src, targets, per)[j] == stacks[j]
    decreases |targets|
  {
    if targets != [] {
      var s1 := MoveOnce(stacks, src, targets[0], per);
      ValidTargetsTail(stacks, s1, src, targets);
      OffsetStep(|targets| - 1, per);
      MoveFrontUntouched(s1, src, targets[1..], per, j);
    }
  }

  /** `Math.floor(n * 0.3)`, read as the integer `3n/10`. */
  function ShareCount(n: nat): (r: nat)
    ensures r <= n && r * 10 <= n * 3 < (r + 1) * 10
  {
    n * 3 / 10
  }

  /** `Math.floor(itemsToRedistribute / targetStacks.length)`: the largest
      equal share of `share` items among `k` targets, by repeated
      subtraction. */
  function PerTarget(share: nat, k: nat): (per: nat)
    requires k > 0
    ensures Offset(k, per) <= share < Offset(k, per) + k
    decreases share
  {
    if share < k then
      OffsetZero(k);
      0
    else
      var p := PerTarget(share - k, k);
      OffsetSucc(k, p);
      p + 1
  }

  lemma {:induction false} OffsetZero(k: nat)
    ensures Offset(k, 0) == 0
  {
    if k > 0 {
      OffsetZero(k - 1);
    }
  }

  lemma {:induction false} OffsetSucc(k: nat, p: nat)
    ensures Offset(k, p + 1) == Offset(k, p) + k
  {
    if k > 0 {
      OffsetSucc(k - 1, p);
    }
  }

  /** The share each target of a redistribution from `src` receives. */
  function ShareOf(stacks: seq<Stack>, src: nat): nat
    requires src < |stacks| && |TargetsFrom(stacks, src, 0)| > 0
  {
    PerTarget(ShareCount(|stacks[src].data|), |TargetsFrom(stacks, src, 0)|)
  }

  /** The stacks after the moves of a redistribution from `src`. */
  function Redistributed(stacks: seq<Stack>, src: nat): (r: seq<Stack>)
    requires src < |stacks| && |TargetsFrom(stacks, src, 0)| > 0
    ensures |r| == |stacks|
  {
    var targets := TargetsFrom(stacks, src, 0);
    MoveFront(stacks, src, targets, ShareOf(stacks, src))
  }

  /** `redistributeData` (MemoryController.js:122-145): with no other stack
      of the source's type below the critical fill it throws and changes
      nothing. Otherwise `floor(0.3 n)` of the source's `n` items, rounded
      down to a multiple of the number of targets, leave the front of the
      source, and no item is created or lost. */
  function RedistributeData(c: Controller, src: nat): (r: Outcome)
    requires src < |c.stacks|
    ensures |TargetsFrom(c.stacks, src, 0)| == 0 <==> r.thrown.Some?
    ensures r.thrown.Some? ==> r == Outcome(c, Some(NoRedistributionTarget))
    ensures SameShape(r.state.stacks, c.stacks)
    ensures TotalItems(r.state.stacks) == TotalItems(c.stacks)
    ensures r.thrown.None? ==> r.state.stacks == Redistributed(c.stacks, src)
    ensures r.thrown.None? ==>
      var k := |TargetsFrom(c.stacks, src, 0)|;
      var moved := Offset(k, PerTarget(ShareCount(|c.stacks[src].data|), k));
      && moved <= ShareCount(|c.stacks[src].data|) < moved + k
      && r.state.stacks[src] == c.stacks[src].(data := c.stacks[src].data[moved..])
  {
    var targets := TargetsFrom(c.stacks, src, 0);
    if |targets| == 0 then Outcome(c, Some(NoRedistributionTarget))
    else
      var per := ShareOf(c.stacks, src);
      var stacks := MoveFront(c.stacks, src, targets, per);
      MoveFrontSource(c.stacks, src, targets, per);
      MoveFrontConserves(c.stacks, src, targets, per);
      var m := RecordSizes(c.monitor, stacks, targets);
      Outcome(Controller(stacks, MM.UpdateMemoryStats(m, stacks[src].id, |stacks[src].data|)), None)
  }

  /** Target number `m` of a redistribution receives the `m`-th equal share
      from the front of the source, appended to what it held. */
  lemma RedistributeShares(stacks: seq<Stack>, src: nat, m: nat)
    requires src < |stacks| && m < |TargetsFrom(stacks, src, 0)|
    ensures
      var t, per := TargetsFrom(stacks, src, 0)[m], ShareOf(stacks, src);
      && Offset(m, per) + per <= |stacks[src].data|
      && Redistributed(stacks, src)[t]
         == stacks[t].(data := stacks[t].data + stacks[src].data[Offset(m, per)..Offset(m, per) + per])
  {
    var targets, per := TargetsFrom(stacks, src, 0), ShareOf(stacks, src);
    RedistributionPlan(stacks, src);
    assert Redistributed(stacks, src) == MoveFront(stacks, src, targets, per);
    MoveFrontSlice(stacks, src, targets, per, m);
  }

  /** The targets and share of a redistribution meet the requirements of
      the moves. */
  lemma RedistributionPlan(stacks: seq<Stack>, src: nat)
    requires src < |stacks| && |TargetsFrom(stacks, src, 0)| > 0
    ensures ValidTargets(stacks, src, TargetsFrom(stacks, src, 0))
    ensures Offset(|TargetsFrom(stacks, src, 0)|, ShareOf(stacks, src)) <= |stacks[src].data|
  {
  }

  /** Target number `m` of the moves receives the slice of the source at
      offset `m * per`. */
  lemma MoveFrontSlice(stacks: seq<Stack>, src: nat, targets: seq<nat>, per: nat, m: nat)
    requires ValidTargets(stacks, src, targets)
    requires Offset(|targets|, per) <= |stacks[src].data|
    requires m < |targets|
    ensures Offset(m, per) + per <= |stacks[src].data|
    ensures MoveFront(stacks, src, targets, per)[targets[m]]
      == stacks[targets[m]].(data := stacks[targets[m]].data
                                     + stacks[src].data[Offset(m, per)..Offset(m, per) + per])
  {
    MoveFrontShares(stacks, src, targets, per, m);
    OffsetStep(m, per);
    ShareAtSlice(stacks[src].data, m, per);
  }

  /** A redistribution leaves every stack that is neither source nor target
      alone. */
  lemma RedistributeLeavesOthers(stacks: seq<Stack>, src: nat, j: nat)
    requires src < |stacks| && |TargetsFrom(stacks, src, 0)| > 0
    requires j < |stacks| && j != src && j !in TargetsFrom(stacks, src, 0)
    ensures Redistributed(stacks, src)[j] == stacks[j]
  {
    MoveFrontUntouched(stacks, src, TargetsFrom(stacks, src, 0), ShareOf(stacks, src), j);
  }

  /** The registry side of `redistributeData` (MemoryController.js:141-144):
      the source and every target have their record updated once, with the
      size they end with; every other stack's record is unchanged, and no
      record or snapshot history is added or removed. */
  lemma RedistributeRecordsSizes(c: Controller, src: nat, j: nat)
    requires WellFormed(c.stacks) && src < |c.stacks| && j < |c.stacks|
    requires |TargetsFrom(c.stacks, src, 0)| > 0
    ensures
      var r := RedistributeData(c, src).state;
      && r.monitor.statistics.Keys == c.monitor.statistics.Keys
      && r.monitor.snapshots == c.monitor.snapshots
    ensures
      var r, targets, id := RedistributeData(c, src).state, TargetsFrom(c.stacks, src, 0), c.stacks[j].id;
      id in c.monitor.statistics ==>
        && ((j == src || j in targets) ==>
              r.monitor.statistics[id] == MM.UpdateMemoryStats(c.monitor, id, |r.stacks[j].data|).statistics[id])
        && (j != src && j !in targets ==> r.monitor.statistics[id] == c.monitor.statistics[id])
  {
    var targets := TargetsFrom(c.stacks, src, 0);
    var stacks := Redistributed(c.stacks, src);
    var m1 := RecordSizes(c.monitor, stacks, targets);
    var r := RedistributeStates(c, src);
    TargetIdsDistinct(c.stacks, src);
    RecordSizesSets(c.monitor, stacks, targets);
    if c.stacks[j].id in c.monitor.statistics {
      RecordOfStack(c.monitor, m1, stacks, targets, src, j);
    }
  }

  /** In a well-formed pool, the stacks after the moves are still well
      formed, the source is no target, and the targets' ids are distinct. */
  lemma TargetIdsDistinct(stacks: seq<Stack>, src: nat)
    requires WellFormed(stacks) && src < |stacks| && |TargetsFrom(stacks, src, 0)| > 0
    ensures
      var targets, moved := TargetsFrom(stacks, src, 0), Redistributed(stacks, src);
      && WellFormed(moved)
      && src !in targets
      && forall a, b :: 0 <= a < b < |targets| ==> moved[targets[a]].id != moved[targets[b]].id
  {
    var targets := TargetsFrom(stacks, src, 0);
    RedistributionPlan(stacks, src);
    MoveFrontConserves(stacks, src, targets, ShareOf(stacks, src));
  }

  /** The state a successful redistribution leaves, spelled out. */
  lemma RedistributeStates(c: Controller, src: nat) returns (r: Controller)
    requires src < |c.stacks| && |TargetsFrom(c.stacks, src, 0)| > 0
    ensures r == RedistributeData(c, src).state
    ensures
      var stacks := Redistributed(c.stacks, src);
      r == Controller(stacks, MM.UpdateMemoryStats(RecordSizes(c.monitor, stacks, TargetsFrom(c.stacks, src, 0)),
                                                   stacks[src].id, |stacks[src].data|))
  {
    r := RedistributeData(c, src).state;
  }

  /** One stack's record after the targets' size updates and then the
      source's. */
  lemma RecordOfStack(m: MM.Monitor, m1: MM.Monitor, stacks: seq<Stack>, targets: seq<nat>, src: nat, j: nat)
    requires WellFormed(stacks) && src < |stacks| && j < |stacks|
    requires src !in targets && forall a :: 0 <= a < |targets| ==> targets[a] < |stacks|
    requires m1.statistics.Keys == m.statistics.Keys
    requires forall a :: 0 <= a < |targets| && stacks[targets[a]].id in m.statistics ==>
      var id := stacks[targets[a]].id;
      m1.statistics[id] == MM.UpdateMemoryStats(m, id, |stacks[targets[a]].data|).statistics[id]
    requires forall k :: k in m.statistics && (forall a :: 0 <= a < |targets| ==> stacks[targets[a]].id != k) ==>
      m1.statistics[k] == m.statistics[k]
    requires stacks[j].id in m.statistics
    ensures
      var r, id := MM.UpdateMemoryStats(m1, stacks[src].id, |stacks[src].data|), stacks[j].id;
      && ((j == src || j in targets) ==> r.statistics[id] == MM.UpdateMemoryStats(m, id, |stacks[j].data|).statistics[id])
      && (j != src && j !in targets ==> r.statistics[id] == m.statistics[id])
  {
    var id := stacks[j].id;
    if j in targets {
      var a :| 0 <= a < |targets| && targets[a] == j;
    } else {
      assert forall a :: 0 <= a < |targets| ==> stacks[targets[a]].id != id;
    }
  }

  /** `handleCriticalMemory` (MemoryController.js:108-120): trim the stack,
      then, if it is still near capacity, redistribute (which may throw);
      an optimisation is recorded when nothing threw. */
  function HandleCriticalMemory(c: Controller, i: nat, elapsed: int): (r: Outcome)
    requires i < |c.stacks|
    ensures SameShape(r.state.stacks, c.stacks)
    ensures TotalItems(r.state.stacks) <= TotalItems(c.stacks)
  {
    var c1 := OptimizeStack(c, i, elapsed);
    TotalItemsUpdate(c.stacks, i, c1.stacks[i]);
    assert c1.stacks == c.stacks[i := c1.stacks[i]];
    var c2 := if IsStackNearCapacity(c1.stacks[i]) then RedistributeData(c1, i) else Outcome(c1, None);
    if c2.thrown.Some? then c2
    else
      var id := c.stacks[i].id;
      Outcome(c2.state.(monitor := MM.RecordOperation(c2.state.monitor, id, "optimizations", elapsed)), None)
  }

  /** `handleStackFailure` (MemoryController.js:147-171): the stack's error
      and access counts return to zero and its contents are re-validated,
      keeping the items that pass in their original order; the registry
      records the new size. The re-validation cannot throw here, so the
      'Stack recovery failed' branch does not arise. */
  function HandleStackFailure(c: Controller, i: nat): (r: Controller)
    requires i < |c.stacks|
    ensures |r.stacks| == |c.stacks|
    ensures r.stacks[i] == c.stacks[i].(data := Revalidate(c.stacks[i].data), errorCount := 0, accessCount := 0)
    ensures forall j :: 0 <= j < |c.stacks| && j != i ==> r.stacks[j] == c.stacks[j]
    ensures r.monitor == MM.UpdateMemoryStats(c.monitor, c.stacks[i].id, |r.stacks[i].data|)
  {
    var s := c.stacks[i];
    var s' := s.(data := Revalidate(s.data), errorCount := 0, accessCount := 0);
    Controller(c.stacks[i := s'], MM.UpdateMemoryStats(c.monitor, s.id, |s'.data|))
  }

  // ---------------------------------------------------------------------------
  // The write path

  /** The `try` block of `writeCacheableData` (MemoryController.js:46-62) on
      the stack at position `i`. */
  function WriteBody(c: Controller, i: nat, p: Payload, now: int, elapsed: int): (r: Outcome)
    requires i < |c.stacks|
    ensures |r.state.stacks| == |c.stacks|
  {
    var id := c.stacks[i].id;
    var locked := LockStack(c, id);
    if locked.thrown.Some? then locked
    else
      var c1 := locked.state;
      var c2 := c1.(stacks := c1.stacks[i := c1.stacks[i].(accessCount := c1.stacks[i].accessCount + 1)]);
      var critical := if IsStackNearCapacity(c2.stacks[i]) then HandleCriticalMemory(c2, i, elapsed) else Outcome(c2, None);
      if critical.thrown.Some? then critical
      else
        var c3 := critical.state;
        var s := c3.stacks[i];
        var c4 := c3.(stacks := c3.stacks[i := s.(data := s.data + [p], lastAccess := now)]);
        var c5 := BalanceMemoryStacks(c4, elapsed);
        var m := MM.RecordOperation(c5.monitor, id, "writes", elapsed);
        Outcome(c5.(monitor := MM.UpdateMemoryStats(m, id, |c5.stacks[i].data|)), None)
  }

  /** The `catch` block of `writeCacheableData` (MemoryController.js:63-70):
      the stack's error count rises by one, and reaching the threshold runs
      `handleStackFailure`. */
  function OnWriteError(c: Controller, i: nat): (r: Controller)
    requires i < |c.stacks|
    ensures |r.stacks| == |c.stacks|
    ensures forall j :: 0 <= j < |c.stacks| && j != i ==> r.stacks[j] == c.stacks[j]
    ensures c.stacks[i].errorCount + 1 < MaxErrorThreshold ==>
      r.stacks[i] == c.stacks[i].(errorCount := c.stacks[i].errorCount + 1) && r.monitor == c.monitor
    ensures c.stacks[i].errorCount + 1 >= MaxErrorThreshold ==>
      && r.stacks[i] == c.stacks[i].(data := Revalidate(c.stacks[i].data), errorCount := 0, accessCount := 0)
      && r.monitor == MM.UpdateMemoryStats(c.monitor, c.stacks[i].id, |Revalidate(c.stacks[i].data)|)
  {
    var s := c.stacks[i];
    var c1 := c.(stacks := c.stacks[i := s.(errorCount := s.errorCount + 1)]);
    if s.errorCount + 1 >= MaxErrorThreshold then HandleStackFailure(c1, i) else c1
  }

  /** The `finally` block (MemoryController.js:71-73): release the lease of
      the stack at `i`; an error the release throws replaces `pending`. */
  function Release(c: Controller, i: nat, pending: Option<Error>): (r: Outcome)
    requires i < |c.stacks|
    ensures |r.state.stacks| == |c.stacks|
    ensures IndexOf(c.stacks, c.stacks[i].id) == Some(i) ==>
      && r.thrown == pending
      && r.state.stacks[i] == c.stacks[i].(locked := false, lockTimeout := Unset)
      && (forall j :: 0 <= j < |c.stacks| && j != i ==> r.state.stacks[j] == c.stacks[j])
  {
    var u := UnlockStack(c, c.stacks[i].id);
    Outcome(u.state, if u.thrown.Some? then u.thrown else pending)
  }

  /** `writeCacheableData` (MemoryController.js:31-74). An invalid payload,
      and a payload for which no stack is eligible, are rejected before any
      state changes. Otherwise the `try` block runs on the selected stack; a
      failure there is counted against the stack and rethrown; the lease is
      released either way. */
  function WriteCacheableData(c: Controller, p: Payload, now: int, elapsed: int): (r: Outcome)
    ensures !ValidateData(p) ==> r == Outcome(c, Some(InvalidDataFormat))
    ensures ValidateData(p) && FindOptimalStack(c.stacks, p).None? ==> r == Outcome(c, Some(NoAvailableStack))
    ensures |r.state.stacks| == |c.stacks|
  {
    if !ValidateData(p) then Outcome(c, Some(InvalidDataFormat))
    else match FindOptimalStack(c.stacks, p)
      case None => Outcome(c, Some(NoAvailableStack))
      case Some(i) =>
        var body := WriteBody(c, i, p, now, elapsed);
        if body.thrown.Some? then
          Release(OnWriteError(body.state, i), i, body.thrown)
        else
          Release(body.state, i, None)
  }

  // ---------------------------------------------------------------------------
  // The read path

  /** The first unlocked stack of a kind: `memoryStacks.find(s => s.type
      === k && !s.isLocked)`, as a position. */
  function FirstFree(stacks: seq<Stack>, k: Kind): (r: Option<nat>)
    ensures r.Some? ==> r.value < |stacks| && stacks[r.value].kind == k && !stacks[r.value].locked
    ensures r.Some? ==> forall j :: 0 <= j < r.value ==> stacks[j].kind != k || stacks[j].locked
    ensures r.None? <==> forall j :: 0 <= j < |stacks| ==> stacks[j].kind != k || stacks[j].locked
    decreases |stacks|
  {
    if stacks == [] then None
    else if stacks[0].kind == k && !stacks[0].locked then Some(0)
    else match FirstFree(stacks[1..], k)
      case None => None
      case Some(j) => Some(j + 1)
  }

  /** `processFunctionData` and `processStaticData`
      (MemoryController.js:256-276): the first unlocked stack of the kind, if
      any, is touched: its access time is set and its access count rises.
      Nothing else changes. */
  function TouchFirstUnlocked(stacks: seq<Stack>, k: Kind, now: int): (r: seq<Stack>)
    ensures |r| == |stacks|
    ensures FirstFree(stacks, k).None? ==> r == stacks
    ensures FirstFree(stacks, k).Some? ==>
      var i := FirstFree(stacks, k).value;
      && r[i] == stacks[i].(lastAccess := now, accessCount := stacks[i].accessCount + 1)
      && forall j :: 0 <= j < |stacks| && j != i ==> r[j] == stacks[j]
  {
    match FirstFree(stacks, k)
    case None => stacks
    case Some(i) => stacks[i := stacks[i].(lastAccess := now, accessCount := stacks[i].accessCount + 1)]
  }

  /** The first stack of a kind, locked or not. */
  function FirstOfKind(stacks: seq<Stack>, k: Kind): (r: Option<nat>)
    ensures r.Some? ==> r.value < |stacks| && stacks[r.value].kind == k
    ensures r.Some? ==> forall j :: 0 <= j < r.value ==> stacks[j].kind != k
    ensures r.None? <==> forall j :: 0 <= j < |stacks| ==> stacks[j].kind != k
    decreases |stacks|
  {
    if stacks == [] then None
    else if stacks[0].kind == k then Some(0)
    else match FirstOfKind(stacks[1..], k)
      case None => None
      case Some(j) => Some(j + 1)
  }

  /** Touching a stack changes neither its id nor its type, so the first
      stack of each type stays where it was. */
  lemma TouchKeepsFirstOfKind(stacks: seq<Stack>, k: Kind, now: int)
    ensures
      var r := TouchFirstUnlocked(stacks, k, now);
      && FirstOfKind(r, k) == FirstOfKind(stacks, k)
      && (forall j :: 0 <= j < |stacks| ==> r[j].id == stacks[j].id)
  {
    var r := TouchFirstUnlocked(stacks, k, now);
    assert forall j :: 0 <= j < |stacks| ==> r[j].id == stacks[j].id && r[j].kind == stacks[j].kind;
  }

  /** `processReadData` (MemoryController.js:235-254): the payload is
      validated like a write and handed back unchanged; no stack's contents
      change. The touched stack is the first unlocked one of the payload's
      type, while the `reads` operation is recorded against the first stack
      of that type whether or not it is locked. */
  function ProcessReadData(c: Controller, p: Payload, now: int, elapsed: int): (r: ReadOutcome)
    ensures !ValidateData(p) <==> r.thrown.Some?
    ensures !ValidateData(p) ==> r == ReadOutcome(c, None, Some(InvalidDataFormat))
    ensures ValidateData(p) ==> r.value == Some(p)
    ensures r.state.stacks == if ValidateData(p) then TouchFirstUnlocked(c.stacks, KindOf(p), now) else c.stacks
    ensures ValidateData(p) ==>
      r.state.monitor == match FirstOfKind(c.stacks, KindOf(p))
        case None => c.monitor
        case Some(j) => MM.RecordOperation(c.monitor, c.stacks[j].id, "reads", elapsed)
  {
    if !ValidateData(p) then ReadOutcome(c, None, Some(InvalidDataFormat))
    else
      var stacks := TouchFirstUnlocked(c.stacks, KindOf(p), now);
      TouchKeepsFirstOfKind(c.stacks, KindOf(p), now);
      var m := match FirstOfKind(stacks, KindOf(p))
        case None => c.monitor
        case Some(j) => MM.RecordOperation(c.monitor, stacks[j].id, "reads", elapsed);
      ReadOutcome(Controller(stacks, m), Some(p), None)
  }

  // ---------------------------------------------------------------------------
  // The periodic health check

  /** The condition under which the health check reports a stack
      (MemoryController.js:281-290): an error rate above one in ten, an
      idle time above five minutes, or a held lease without a timer. */
  predicate Unhealthy(s: Stack, now: int) {
    || s.errorCount * 10 > (if s.accessCount > 1 then s.accessCount else 1)
    || now - s.lastAccess > IdleLimit
    || (s.locked && s.lockTimeout == Unset)
  }

  /** One round of the health check (MemoryController.js:280-297): apart
      from logging, a snapshot of every stack's record, in pool order. */
  function HealthCheckRound(c: Controller, from: nat, now: int): (r: Controller)
    requires from <= |c.stacks|
    ensures r.stacks == c.stacks
    ensures r.monitor.statistics == c.monitor.statistics
    decreases |c.stacks| - from
  {
    if from == |c.stacks| then c
    else
      var c1 := c.(monitor := MM.TakeSnapshot(c.monitor, c.stacks[from].id, now));
      HealthCheckRound(c1, from + 1, now)
  }

  /** The registry side of a health-check round (MemoryController.js:296):
      every stack from `from` on (ids `from + 1` to the pool size) that has
      a record gets one snapshot of it,
      stamped `now`, under the 100-entry retention; every other history is
      unchanged. */
  lemma {:induction false} HealthCheckSnapshots(c: Controller, from: nat, now: int)
    requires WellFormed(c.stacks) && from <= |c.stacks|
    ensures
      var r := HealthCheckRound(c, from, now);
      forall id :: id in c.monitor.statistics && from + 1 <= id <= |c.stacks| ==>
        MM.History(r.monitor, id) == MM.Retain(MM.History(c.monitor, id), MM.Snapshot(now, c.monitor.statistics[id]))
    ensures
      var r := HealthCheckRound(c, from, now);
      forall id :: (id !in c.monitor.statistics || !(from + 1 <= id <= |c.stacks|)) ==>
        MM.History(r.monitor, id) == MM.History(c.monitor, id)
    decreases |c.stacks| - from
  {
    if from < |c.stacks| {
      var id := c.stacks[from].id;
      var c1 := c.(monitor := MM.TakeSnapshot(c.monitor, id, now));
      assert id == from + 1;
      MM.SnapshotHistory(c.monitor, id, now);
      HealthCheckSnapshots(c1, from + 1, now);
    }
  }
}

=== FILE: monitor.dfy ===
/** The statistics registry (MemoryMonitor.js): one record of counters per
    stack id, a bounded history of snapshots per id, a health classifier and
    the handle of the periodic monitoring task. The registry is a process-wide
    singleton in JavaScript; here it is a value that operations take and
    return. Floating-point quotients are kept as integer pairs and compared by
    cross-multiplication. */
module MemoryMonitor {
  import opened Common

  /** The most snapshots kept per stack (MemoryMonitor.js:81). */
  const SnapshotLimit: nat := 100
  /** `lockThreshold` (MemoryMonitor.js:91). */
  const LockThreshold: nat := 5

  datatype Health = Healthy | Warning | Critical

  /** The quotient `num / den` of two integers, `den >= 1`. */
  datatype Ratio = Ratio(num: int, den: int)

  /** One named operation counter. The JavaScript object keeps its keys in
      insertion order, so the counters are a sequence. */
  datatype Counter = Counter(kind: string, count: nat)

  datatype HealthRecord = HealthRecord(status: Health, lastCheck: int, errorRate: Ratio, lockCount: nat)

  /** The per-stack record. `averageOperationTime` is not stored: it is always
      `totalOperationTime / operationCount` (see `AverageOperationTime`), and
      `lastOptimizationTime` is never written after initialisation. */
  datatype Stats = Stats(
    operations: seq<Counter>,
    totalOperationTime: int,
    operationCount: nat,
    currentSize: nat,
    peakSize: nat,
    health: HealthRecord)

  datatype Snapshot = Snapshot(timestamp: int, stats: Stats)

  /** `handle` says whether `monitoringInterval` holds a scheduled periodic
      task; `leaked` counts the scheduled tasks whose handle was overwritten,
      which nothing can cancel any more. */
  datatype Monitor = Monitor(
    statistics: map<int, Stats>,
    snapshots: map<int, seq<Snapshot>>,
    handle: bool,
    leaked: nat)

  datatype Report = Report(
    stackId: int,
    timestamp: int,
    health: HealthRecord,
    operationCount: nat,
    averageOperationTime: Ratio,
    currentSize: nat,
    peakSize: nat,
    errorRate: Ratio,
    details: Stats)

  function NewMonitor(): (m: Monitor)
    ensures m.statistics == map[] && m.snapshots == map[]
    ensures !m.handle && m.leaked == 0
  {
    Monitor(map[], map[], false, 0)
  }

  // ---------------------------------------------------------------------------
  // Operation counters

  /** The value of counter `kind`, `0` when there is no such counter. */
  function Count(ops: seq<Counter>, kind: string): nat {
    if ops == [] then 0
    else if ops[0].kind == kind then ops[0].count
    else Count(ops[1..], kind)
  }

  function Total(ops: seq<Counter>): nat {
    if ops == [] then 0 else ops[0].count + Total(ops[1..])
  }

  function Kinds(ops: seq<Counter>): set<string> {
    set c | c in ops :: c.kind
  }

  /** `operations[kind]++`, after creating a missing counter at `0`
      (MemoryMonitor.js:41-45). */
  function Bump(ops: seq<Counter>, kind: string): (r: seq<Counter>)
    ensures Count(r, kind) == Count(ops, kind) + 1
    ensures forall k :: k != kind ==> Count(r, k) == Count(ops, k)
    ensures Total(r) == Total(ops) + 1
    ensures Kinds(r) == Kinds(ops) + {kind}
  {
    if ops == [] then [Counter(kind, 1)]
    else
      assert ops == [ops[0]] + ops[1..];
      ConsCounters(ops[0], ops[1..]);
      if ops[0].kind == kind then
        var bumped := Counter(kind, ops[0].count + 1);
        ConsCounters(bumped, ops[1..]);
        [bumped] + ops[1..]
      else
        var rest := Bump(ops[1..], kind);
        ConsCounters(ops[0], rest);
        [ops[0]] + rest
  }

  /** The counters of a list with one more counter in front. */
  lemma ConsCounters(c: Counter, ops: seq<Counter>)
    ensures forall k :: Count([c] + ops, k) == if c.kind == k then c.count else Count(ops, k)
    ensures Total([c] + ops) == c.count + Total(ops)
    ensures Kinds([c] + ops) == {c.kind} + Kinds(ops)
  {
    assert ([c] + ops)[1..] == ops;
    KindsCons(c, ops);
  }

  lemma KindsCons(c: Counter, ops: seq<Counter>)
    ensures Kinds([c] + ops) == {c.kind} + Kinds(ops)
  {
    assert forall d :: d in [c] + ops <==> d == c || d in ops;
  }

  // ---------------------------------------------------------------------------
  // Records and their invariant

  const InitialKinds: seq<string> := ["reads", "writes", "optimizations", "errors"]

  /** The record `initializeStackMonitoring` stores (MemoryMonitor.js:11-34). */
  function InitialStats(now: int): Stats {
    Stats(
      [Counter("reads", 0), Counter("writes", 0), Counter("optimizations", 0), Counter("errors", 0)],
      0, 0, 0, 0,
      HealthRecord(Healthy, now, Ratio(0, 1), 0))
  }

  /** What every record of this registry satisfies: the operation total is
      the sum of the named counters, the peak is at least the current size,
      the stored error rate has a positive denominator, and `lockCount` is
      still its initial `0` (nothing in the source writes it again). */
  ghost predicate Consistent(s: Stats) {
    && s.operationCount == Total(s.operations)
    && s.peakSize >= s.currentSize
    && s.health.errorRate.den >= 1
    && s.health.lockCount == 0
  }

  ghost predicate Good(m: Monitor) {
    && (forall id :: id in m.statistics ==> Consistent(m.statistics[id]))
    && (forall id :: id in m.snapshots ==> |m.snapshots[id]| <= SnapshotLimit)
  }

  /** `averageOperationTime` as the source maintains it: `0` until the first
      operation, then `totalOperationTime / operationCount`. */
  function AverageOperationTime(s: Stats): (r: Ratio)
    ensures r.den >= 1
    ensures s.operationCount > 0 ==> r == Ratio(s.totalOperationTime, s.operationCount)
  {
    Ratio(s.totalOperationTime, if s.operationCount > 0 then s.operationCount else 1)
  }

  // ---------------------------------------------------------------------------
  // Operations

  /** `initializeStackMonitoring` (MemoryMonitor.js:10-35). `Map.set`
      replaces an existing record, so a second call resets it. */
  function InitializeStackMonitoring(m: Monitor, id: int, now: int): (r: Monitor)
    ensures r.statistics.Keys == m.statistics.Keys + {id}
    ensures forall k :: k in m.statistics && k != id ==> r.statistics[k] == m.statistics[k]
    ensures Consistent(r.statistics[id])
    ensures Total(r.statistics[id].operations) == 0
    ensures Kinds(r.statistics[id].operations) == (set k | k in InitialKinds)
    ensures r.statistics[id].totalOperationTime == 0 && r.statistics[id].operationCount == 0
    ensures r.statistics[id].currentSize == 0 && r.statistics[id].peakSize == 0
    ensures r.statistics[id].health == HealthRecord(Healthy, now, Ratio(0, 1), 0)
    ensures r.snapshots == m.snapshots && r.handle == m.handle && r.leaked == m.leaked
  {
    var initial := InitialStats(now);
    assert Kinds(initial.operations) == (set k | k in InitialKinds) by {
      assert forall c :: c in initial.operations <==> c in [Counter("reads", 0), Counter("writes", 0), Counter("optimizations", 0), Counter("errors", 0)];
    }
    m.(statistics := m.statistics[id := initial])
  }

  /** `recordOperation` (MemoryMonitor.js:37-55): an unknown id is ignored;
      otherwise the named counter, the operation total and the accumulated
      time all advance. */
  function RecordOperation(m: Monitor, id: int, kind: string, duration: int): (r: Monitor)
    ensures id !in m.statistics ==> r == m
    ensures r.statistics.Keys == m.statistics.Keys
    ensures forall k :: k in m.statistics && k != id ==> r.statistics[k] == m.statistics[k]
    ensures id in m.statistics ==>
      var s, s' := m.statistics[id], r.statistics[id];
      && Count(s'.operations, kind) == Count(s.operations, kind) + 1
      && (forall other :: other != kind ==> Count(s'.operations, other) == Count(s.operations, other))
      && Kinds(s'.operations) == Kinds(s.operations) + {kind}
      && s'.operationCount == s.operationCount + 1
      && s'.totalOperationTime == s.totalOperationTime + duration
      && s'.currentSize == s.currentSize && s'.peakSize == s.peakSize && s'.health == s.health
    ensures r.snapshots == m.snapshots && r.handle == m.handle && r.leaked == m.leaked
  {
    if id !in m.statistics then m
    else
      var s := m.statistics[id];
      var s' := s.(operations := Bump(s.operations, kind),
                   totalOperationTime := s.totalOperationTime + duration,
                   operationCount := s.operationCount + 1);
      m.(statistics := m.statistics[id := s'])
  }

  /** `updateMemoryStats` (MemoryMonitor.js:57-63): the peak only ever rises. */
  function UpdateMemoryStats(m: Monitor, id: int, size: nat): (r: Monitor)
    ensures id !in m.statistics ==> r == m
    ensures r.statistics.Keys == m.statistics.Keys
    ensures forall k :: k in m.statistics && k != id ==> r.statistics[k] == m.statistics[k]
    ensures id in m.statistics ==>
      var s, s' := m.statistics[id], r.statistics[id];
      && s'.currentSize == size
      && s'.peakSize >= s.peakSize
      && s'.peakSize >= size
      && (s'.peakSize == s.peakSize || s'.peakSize == size)
      && s'.operations == s.operations && s'.operationCount == s.operationCount
      && s'.totalOperationTime == s.totalOperationTime && s'.health == s.health
    ensures r.snapshots == m.snapshots && r.handle == m.handle && r.leaked == m.leaked
  {
    if id !in m.statistics then m
    else
      var s := m.statistics[id];
      var peak := if s.peakSize >= size then s.peakSize else size;
      m.(statistics := m.statistics[id := s.(currentSize := size, peakSize := peak)])
  }

  /** The history after `push` and, past the limit, `shift` (MemoryMonitor.js:79-83). */
  function Retain(history: seq<Snapshot>, snap: Snapshot): (r: seq<Snapshot>)
    ensures |r| > 0 && r[|r| - 1] == snap
    ensures |history| <= SnapshotLimit ==> |r| == if |history| < SnapshotLimit then |history| + 1 else SnapshotLimit
    ensures |history| < SnapshotLimit ==> r == history + [snap]
    ensures |history| >= SnapshotLimit ==> r == history[1..] + [snap]
  {
    var h := history + [snap];
    if |h| > SnapshotLimit then h[1..] else h
  }

  /** `takeSnapshot` (MemoryMonitor.js:65-84): an unknown id is ignored;
      otherwise a copy of the record, stamped `now`, joins the back of that
      id's history, and the oldest entry leaves once there are more than 100. */
  function TakeSnapshot(m: Monitor, id: int, now: int): (r: Monitor)
    ensures id !in m.statistics ==> r == m
    ensures r.statistics == m.statistics && r.handle == m.handle && r.leaked == m.leaked
    ensures forall k :: k in m.snapshots && k != id ==> k in r.snapshots && r.snapshots[k] == m.snapshots[k]
    ensures r.snapshots.Keys <= m.snapshots.Keys + {id}
    ensures id in m.statistics ==> id in r.snapshots
    ensures id in m.statistics ==>
      var old_ := if id in m.snapshots then m.snapshots[id] else [];
      var h := r.snapshots[id];
      && |h| > 0
      && h[|h| - 1] == Snapshot(now, m.statistics[id])
      && (|old_| <= SnapshotLimit ==> |h| <= SnapshotLimit)
      && (|old_| < SnapshotLimit ==> h == old_ + [Snapshot(now, m.statistics[id])])
      && (|old_| == SnapshotLimit ==> h == old_[1..] + [Snapshot(now, m.statistics[id])])
  {
    if id !in m.statistics then m
    else
      var history := if id in m.snapshots then m.snapshots[id] else [];
      m.(snapshots := m.snapshots[id := Retain(history, Snapshot(now, m.statistics[id]))])
  }

  /** `errors / max(1, operationCount)` (MemoryMonitor.js:93-94). */
  function ErrorRate(s: Stats): (r: Ratio)
    ensures r.den >= 1 && r.num == Count(s.operations, "errors")
  {
    Ratio(Count(s.operations, "errors"), if s.operationCount > 1 then s.operationCount else 1)
  }

  /** The comparison `r > num / den` of two quotients. */
  predicate Exceeds(r: Ratio, num: int, den: int)
    requires r.den >= 1 && den >= 1
  {
    r.num * den > num * r.den
  }

  /** `currentSize / peakSize > 0.9`; a zero peak gives `Infinity` in
      JavaScript, which exceeds any bound. */
  predicate NearPeak(s: Stats) {
    s.peakSize == 0 || Exceeds(Ratio(s.currentSize, s.peakSize), 9, 10)
  }

  /** The status `getStackHealth` assigns (MemoryMonitor.js:96-105), in this
      order of precedence: the error rate, then the fill against the peak,
      then the lock count. */
  function Classify(s: Stats): (h: Health)
    ensures h == Critical <==> Count(s.operations, "errors") * 10 > (if s.operationCount > 1 then s.operationCount else 1)
    ensures h == Healthy <==>
      && Count(s.operations, "errors") * 10 <= (if s.operationCount > 1 then s.operationCount else 1)
      && (s.currentSize == 0 || (s.peakSize > 0 && s.currentSize * 10 <= s.peakSize * 9))
      && s.health.lockCount <= LockThreshold
  {
    if Exceeds(ErrorRate(s), 1, 10) then Critical
    else if s.currentSize > 0 && NearPeak(s) then Warning
    else if s.health.lockCount > LockThreshold then Warning
    else Healthy
  }

  /** `getStackHealth` (MemoryMonitor.js:86-111): `null` for an unknown id;
      otherwise the record's health part is recomputed and returned. */
  function GetStackHealth(m: Monitor, id: int, now: int): (r: (Monitor, Option<HealthRecord>))
    ensures id !in m.statistics <==> r.1.None?
    ensures id !in m.statistics ==> r.0 == m
    ensures r.0.statistics.Keys == m.statistics.Keys
    ensures forall k :: k in m.statistics && k != id ==> r.0.statistics[k] == m.statistics[k]
    ensures id in m.statistics ==>
      var s, s' := m.statistics[id], r.0.statistics[id];
      && r.1 == Some(s'.health)
      && s'.health.status == Classify(s)
      && s'.health.errorRate == ErrorRate(s)
      && s'.health.lastCheck == now
      && s'.health.lockCount == s.health.lockCount
      && s' == s.(health := s'.health)
    ensures r.0.snapshots == m.snapshots && r.0.handle == m.handle && r.0.leaked == m.leaked
  {
    if id !in m.statistics then (m, None)
    else
      var s := m.statistics[id];
      var h := s.health.(status := Classify(s), lastCheck := now, errorRate := ErrorRate(s));
      (m.(statistics := m.statistics[id := s.(health := h)]), Some(h))
  }

  /** `getStackStatistics` (MemoryMonitor.js:113-115). */
  function GetStackStatistics(m: Monitor, id: int): (r: Option<Stats>)
    ensures r.Some? <==> id in m.statistics
    ensures r.Some? ==> r.value == m.statistics[id]
  {
    if id in m.statistics then Some(m.statistics[id]) else None
  }

  /** `generateReport` (MemoryMonitor.js:125-143): `null` for an unknown id;
      otherwise the health is recomputed first and the report's summary and
      details are read from the updated record. The formatted strings are
      kept as their numbers. */
  function GenerateReport(m: Monitor, id: int, now: int): (r: (Monitor, Option<Report>))
    ensures id !in m.statistics <==> r.1.None?
    ensures id !in m.statistics ==> r.0 == m
    ensures r.0 == GetStackHealth(m, id, now).0
    ensures r.1.Some? ==>
      var rep := r.1.value;
      && rep.stackId == id
      && rep.timestamp == now
      && Some(rep.health) == GetStackHealth(m, id, now).1
      && rep.details == r.0.statistics[id]
      && rep.health == rep.details.health
      && rep.operationCount == rep.details.operationCount
      && rep.averageOperationTime == AverageOperationTime(rep.details)
      && rep.currentSize == rep.details.currentSize && rep.peakSize == rep.details.peakSize
      && rep.errorRate == Ratio(rep.details.health.errorRate.num * 100, rep.details.health.errorRate.den)
  {
    if id !in m.statistics then (m, None)
    else
      var (m', health) := GetStackHealth(m, id, now);
      var s := m'.statistics[id];
      var rep := Report(
        id, now, health.value,
        s.operationCount, AverageOperationTime(s),
        s.currentSize, s.peakSize,
        Ratio(s.health.errorRate.num * 100, s.health.errorRate.den),
        s);
      (m', Some(rep))
  }

  /** The periodic tasks still scheduled. */
  function LiveTimers(m: Monitor): nat {
    m.leaked + if m.handle then 1 else 0
  }

  /** `startMonitoring` as written (MemoryMonitor.js:145-164): a new periodic
      task is scheduled and its handle overwrites the old one, which is never
      cancelled. The interval length only affects scheduling. */
  function StartMonitoringAsWritten(m: Monitor): (r: Monitor)
    ensures r.handle && LiveTimers(r) == LiveTimers(m) + 1
    ensures r.statistics == m.statistics && r.snapshots == m.snapshots
  {
    m.(handle := true, leaked := LiveTimers(m))
  }

  /** `startMonitoring` with the intended restart: cancel any scheduled task
      before scheduling the new one, so exactly one task is added over the
      ones already lost. */
  function StartMonitoring(m: Monitor): (r: Monitor)
    ensures r.handle && r.leaked == m.leaked
    ensures LiveTimers(r) == m.leaked + 1
    ensures r.statistics == m.statistics && r.snapshots == m.snapshots
  {
    StartMonitoringAsWritten(StopMonitoring(m))
  }

  /** `stopMonitoring` (MemoryMonitor.js:166-171): cancels the periodic task whose
      handle is held, if any. */
  function StopMonitoring(m: Monitor): (r: Monitor)
    ensures !r.handle && r.leaked == m.leaked
    ensures LiveTimers(r) == m.leaked
    ensures r.statistics == m.statistics && r.snapshots == m.snapshots
  {
    m.(handle := false)
  }

  // ---------------------------------------------------------------------------
  // Properties

  /** Every operation of the registry keeps its invariant. */
  lemma OperationsKeepGood(m: Monitor, id: int, kind: string, duration: int, size: nat, now: int)
    requires Good(m)
    ensures Good(InitializeStackMonitoring(m, id, now))
    ensures Good(RecordOperation(m, id, kind, duration))
    ensures Good(UpdateMemoryStats(m, id, size))
    ensures Good(TakeSnapshot(m, id, now))
    ensures Good(GetStackHealth(m, id, now).0)
    ensures Good(GenerateReport(m, id, now).0)
  {
    RecordKeepsGood(m, id, kind, duration);
    UpdateKeepsGood(m, id, size);
    SnapshotKeepsGood(m, id, now);
    HealthKeepsGood(m, id, now);
  }

  lemma RecordKeepsGood(m: Monitor, id: int, kind: string, duration: int)
    requires Good(m)
    ensures Good(RecordOperation(m, id, kind, duration))
  {
  }

  lemma UpdateKeepsGood(m: Monitor, id: int, size: nat)
    requires Good(m)
    ensures Good(UpdateMemoryStats(m, id, size))
  {
  }

  lemma HealthKeepsGood(m: Monitor, id: int, now: int)
    requires Good(m)
    ensures Good(GetStackHealth(m, id, now).0)
  {
  }

  lemma SnapshotKeepsGood(m: Monitor, id: int, now: int)
    requires Good(m)
    ensures Good(TakeSnapshot(m, id, now))
  {
    var m1 := TakeSnapshot(m, id, now);
    forall k | k in m1.snapshots
      ensures |m1.snapshots[k]| <= SnapshotLimit
    {
      if k != id {
        assert k in m.snapshots;
      }
    }
  }

  /** Peak size is monotone under every registry operation but one: a size
      update never lowers it, and operations on another stack leave it
      alone; re-initialising the same stack resets it to 0. */
  lemma PeakMonotone(m: Monitor, id: int, k: int, kind: string, duration: int, size: nat, now: int)
    requires k in m.statistics && k != id
    ensures RecordOperation(m, id, kind, duration).statistics[k].peakSize == m.statistics[k].peakSize
    ensures UpdateMemoryStats(m, k, size).statistics[k].peakSize >= m.statistics[k].peakSize
    ensures UpdateMemoryStats(m, id, size).statistics[k].peakSize == m.statistics[k].peakSize
    ensures GetStackHealth(m, k, now).0.statistics[k].peakSize == m.statistics[k].peakSize
    ensures InitializeStackMonitoring(m, id, now).statistics[k].peakSize == m.statistics[k].peakSize
    ensures InitializeStackMonitoring(m, k, now).statistics[k].peakSize == 0
  {
  }

  /** Under the invariant the lock-count branch of the classifier can never
      decide the outcome, and the fill test divides by a positive peak: the
      status is `Warning` exactly when the error rate is tolerable and the
      current size is non-zero and above nine tenths of the peak. */
  lemma LockBranchUnreachable(s: Stats)
    requires Consistent(s)
    ensures s.currentSize > 0 ==> s.peakSize > 0
    ensures Classify(s) == Warning <==>
      && Count(s.operations, "errors") * 10 <= (if s.operationCount > 1 then s.operationCount else 1)
      && s.currentSize > 0 && s.currentSize * 10 > s.peakSize * 9
  {
  }

  /** A side effect of measuring fill against the peak: right after a stack
      reaches a new non-zero peak, and with no errors recorded, the record
      reads `Warning`. */
  lemma NewPeakReadsWarning(m: Monitor, id: int, size: nat, now: int)
    requires id in m.statistics && Consistent(m.statistics[id])
    requires size > 0 && size >= m.statistics[id].peakSize
    requires Count(m.statistics[id].operations, "errors") == 0
    ensures GetStackHealth(UpdateMemoryStats(m, id, size), id, now).1 == Some(HealthRecord(Warning, now, ErrorRate(m.statistics[id]), 0))
  {
  }

  /** A freshly initialised record reads `Healthy`. */
  lemma FreshRecordHealthy(m: Monitor, id: int, now: int, later: int)
    ensures GetStackHealth(InitializeStackMonitoring(m, id, now), id, later).1
         == Some(HealthRecord(Healthy, later, Ratio(0, 1), 0))
  {
    var s := InitialStats(now);
    assert Count(s.operations, "errors") == 0;
  }

  /** The history of `id`, empty when none was started yet. */
  function History(m: Monitor, id: int): seq<Snapshot> {
    if id in m.snapshots then m.snapshots[id] else []
  }

  /** A snapshot of `id` extends its history by one retained entry and
      leaves every other history as it was. */
  lemma SnapshotHistory(m: Monitor, id: int, now: int)
    ensures id in m.statistics ==>
      History(TakeSnapshot(m, id, now), id) == Retain(History(m, id), Snapshot(now, m.statistics[id]))
    ensures forall k :: k != id ==> History(TakeSnapshot(m, id, now), k) == History(m, k)
    ensures id !in m.statistics ==> History(TakeSnapshot(m, id, now), id) == History(m, id)
  {
  }

  /** `getStackHistory` (MemoryMonitor.js:117-123): the snapshots of `id`
      taken at most `range` before `now`, oldest first; none for an id
      without a history. */
  function GetStackHistory(m: Monitor, id: int, now: int, range: int): (r: seq<Snapshot>)
    ensures id !in m.snapshots ==> r == []
    ensures forall i :: 0 <= i < |r| ==> now - r[i].timestamp <= range
    ensures forall x :: x in History(m, id) && now - x.timestamp <= range <==> x in r
    ensures forall x :: multiset(r)[x] == if now - x.timestamp <= range then multiset(History(m, id))[x] else 0
    ensures |r| <= |History(m, id)|
  {
    RecentFilters(History(m, id), now, range);
    Recent(History(m, id), now, range)
  }

  /** The entries of `h` at most `range` before `now`, in their order. */
  function Recent(h: seq<Snapshot>, now: int, range: int): (r: seq<Snapshot>)
    ensures forall i :: 0 <= i < |r| ==> now - r[i].timestamp <= range
    ensures forall x :: x in h && now - x.timestamp <= range <==> x in r
    ensures |r| <= |h|
  {
    if h == [] then []
    else
      assert h == [h[0]] + h[1..];
      var rest := Recent(h[1..], now, range);
      if now - h[0].timestamp <= range then [h[0]] + rest else rest
  }

  /** The filter keeps every entry within range as often as the history
      holds it, and no other entry. */
  lemma {:induction false} RecentFilters(h: seq<Snapshot>, now: int, range: int)
    ensures forall x :: multiset(Recent(h, now, range))[x] == if now - x.timestamp <= range then multiset(h)[x] else 0
  {
    if h != [] {
      assert h == [h[0]] + h[1..];
      RecentFilters(h[1..], now, range);
    }
  }

  /** The filter works piecewise: the entries of a concatenation that fall
      in the window are those of each part, in order. With the definition
      on a single entry this fixes the result as the order-preserving
      filter. */
  lemma {:induction false} RecentAppend(a: seq<Snapshot>, b: seq<Snapshot>, now: int, range: int)
    ensures Recent(a + b, now, range) == Recent(a, now, range) + Recent(b, now, range)
    decreases |a|
  {
    if a == [] {
      assert a + b == b;
    } else {
      assert (a + b)[0] == a[0] && (a + b)[1..] == a[1..] + b;
      RecentAppend(a[1..], b, now, range);
    }
  }

  /** A window that covers every snapshot returns the whole history,
      unchanged and in order. */
  lemma {:induction false} RecentKeepsAll(h: seq<Snapshot>, now: int, range: int)
    requires forall i :: 0 <= i < |h| ==> now - h[i].timestamp <= range
    ensures Recent(h, now, range) == h
  {
    if h != [] {
      RecentKeepsAll(h[1..], now, range);
    }
  }

  /** The snapshots of one record stamped with each instant of `times`. */
  function Stamped(times: seq<int>, s: Stats): (r: seq<Snapshot>)
    ensures |r| == |times|
    ensures forall i :: 0 <= i < |times| ==> r[i] == Snapshot(times[i], s)
  {
    seq(|times|, i requires 0 <= i < |times| => Snapshot(times[i], s))
  }

  /** Snapshots of `id` taken at each instant of `times`, in order. */
  function TakeSnapshots(m: Monitor, id: int, times: seq<int>): (r: Monitor)
    ensures r.statistics == m.statistics
    decreases |times|
  {
    if times == [] then m
    else TakeSnapshot(TakeSnapshots(m, id, times[..|times| - 1]), id, times[|times| - 1])
  }

  /** `Retain` applied to each of `snaps` in turn. */
  function RetainAll(history: seq<Snapshot>, snaps: seq<Snapshot>): seq<Snapshot>
    decreases |snaps|
  {
    if snaps == [] then history
    else Retain(RetainAll(history, snaps[..|snaps| - 1]), snaps[|snaps| - 1])
  }

  /** How many of the oldest entries a bounded history of `n` has lost. */
  function Dropped(n: nat): nat {
    if n > SnapshotLimit then n - SnapshotLimit else 0
  }

  /** A bounded history fed any number of snapshots holds exactly the newest
      100 of all it has seen, oldest first. */
  lemma {:induction false} RetainAllKeepsNewest(history: seq<Snapshot>, snaps: seq<Snapshot>)
    requires |history| <= SnapshotLimit
    ensures RetainAll(history, snaps) == (history + snaps)[Dropped(|history| + |snaps|)..]
    decreases |snaps|
  {
    if snaps != [] {
      var pre := snaps[..|snaps| - 1];
      RetainAllKeepsNewest(history, pre);
      var all := history + snaps;
      assert history + pre == all[..|all| - 1];
      RetainSlice(all, Dropped(|history| + |pre|));
    }
  }

  /** One more snapshot on a history holding the suffix of `all` from `d`
      on, short of its last entry, leaves the newest 100 of `all`. */
  lemma RetainSlice(all: seq<Snapshot>, d: nat)
    requires d < |all| && |all| - 1 - d <= SnapshotLimit
    requires d > 0 ==> |all| - 1 - d == SnapshotLimit
    ensures Retain(all[d..|all| - 1], all[|all| - 1]) == all[Dropped(|all|)..]
  {
    var kept := all[d..|all| - 1];
    if |kept| == SnapshotLimit {
      assert kept[1..] + [all[|all| - 1]] == all[d + 1..];
    } else {
      assert kept + [all[|all| - 1]] == all[d..];
    }
  }

  lemma {:induction false} TakeSnapshotsRetains(m: Monitor, id: int, times: seq<int>)
    requires id in m.statistics
    ensures History(TakeSnapshots(m, id, times), id) == RetainAll(History(m, id), Stamped(times, m.statistics[id]))
    decreases |times|
  {
    if times != [] {
      var pre := times[..|times| - 1];
      TakeSnapshotsRetains(m, id, pre);
      var all := Stamped(times, m.statistics[id]);
      assert all[..|times| - 1] == Stamped(pre, m.statistics[id]);
    }
  }

  /** Snapshots are kept first-in first-out: whatever bounded history a known
      id had, after snapshots at the instants `times` it holds the newest 100
      of old and new entries together, in the order they were taken. */
  lemma SnapshotsFifo(m: Monitor, id: int, times: seq<int>)
    requires id in m.statistics
    requires |History(m, id)| <= SnapshotLimit
    ensures
      var all := History(m, id) + Stamped(times, m.statistics[id]);
      History(TakeSnapshots(m, id, times), id) == all[Dropped(|all|)..]
  {
    var h, snaps := History(m, id), Stamped(times, m.statistics[id]);
    TakeSnapshotsRetains(m, id, times);
    RetainAllKeepsNewest(h, snaps);
    assert |h + snaps| == |h| + |snaps|;
  }

  /** The lost-timer defect: starting twice and stopping once leaves a
      periodic task running with no handle to cancel it. */
  lemma RestartLeaksTimer()
    ensures
      var m := StopMonitoring(StartMonitoringAsWritten(StartMonitoringAsWritten(NewMonitor())));
      !m.handle && LiveTimers(m) == 1
  {
  }

  /** With the corrected restart, starting any number of times and then
      stopping once leaves no more tasks running than had already leaked. */
  lemma {:induction false} RestartReplaces(m: Monitor, starts: nat)
    ensures StartMonitorings(m, starts).leaked == m.leaked
    ensures LiveTimers(StopMonitoring(StartMonitorings(m, starts))) == m.leaked
    decreases starts
  {
    if starts > 0 {
      RestartReplaces(m, starts - 1);
    }
  }

  function StartMonitorings(m: Monitor, starts: nat): (r: Monitor)
    ensures starts > 0 ==> r.handle
    decreases starts
  {
    if starts == 0 then m else StartMonitoring(StartMonitorings(m, starts - 1))
  }
}

=== FILE: payload.dfy ===
/** The values the pool stores. JavaScript tells them apart at run time with
    `typeof` and `JSON.stringify`; here the distinction is a tag:
    - `Missing` is `null` or `undefined`;
    - `Callable` is a function value;
    - `Static` is any other value, with a flag recording whether
      `JSON.stringify` accepts it (a cyclic object or a BigInt does not).
    `ref` tells two payloads apart. `lastAccess` is the payload's own
    `lastAccess` property read as a number, `0` when it is absent or falsy;
    only `optimizeStack` looks at it. */
module Payloads {

  datatype Payload =
    | Missing
    | Callable(ref: nat, lastAccess: int)
    | Static(ref: nat, serialisable: bool, lastAccess: int)

  /** The two stack types: `'F'` holds functions, `'S'` everything else. */
  datatype Kind = F | S

  /** `typeof data === 'function' ? 'F' : 'S'` (MemoryController.js:77). */
  function KindOf(p: Payload): (k: Kind)
    ensures k == F <==> p.Callable?
  {
    if p.Callable? then F else S
  }

  /** `validateData` (MemoryController.js:93-102): null and undefined are
      rejected, functions are always accepted, and any other value is
      accepted iff it serialises. */
  predicate ValidateData(p: Payload) {
    match p
    case Missing => false
    case Callable(_, _) => true
    case Static(_, serialisable, _) => serialisable
  }

  /** The truthiness test `data[0] && data[0].lastAccess` on one item. */
  predicate HasLastAccess(p: Payload) {
    !p.Missing? && p.lastAccess != 0
  }

  /** The sort key `lastAccess`; an item without the field sorts as `0`. */
  function Stamp(p: Payload): int {
    if p.Missing? then 0 else p.lastAccess
  }
}

=== FILE: pool.dfy ===
/** Properties of the pool as a whole: the invariant that the constructor
    establishes and every public operation keeps, what a successful write
    does, and how a lease behaves under lock, unlock and timeout
    (MemoryController.js). */
module PoolProperties {
  import opened Common
  import opened Payloads
  import opened MemoryStacks
  import opened MemoryController
  import MM = MemoryMonitor

  /** The pool invariant: the constructor's layout, a timer behind every held
      lease, no stack over the maximum size, and a registry that keeps its
      own invariant. */
  ghost predicate Sound(c: Controller) {
    && WellFormed(c.stacks)
    && (forall i :: 0 <= i < |c.stacks| ==> LeaseSound(c.stacks[i]))
    && (forall i :: 0 <= i < |c.stacks| ==> |c.stacks[i].data| <= MaxStackSize)
    && MM.Good(c.monitor)
  }

  /** The stack a successful write leaves: the payload appended, the access
      time and count updated, the lease released. */
  function Written(s: Stack, p: Payload, now: int): Stack {
    s.(data := s.data + [p], lastAccess := now, accessCount := s.accessCount + 1,
       locked := false, lockTimeout := Unset)
  }

  lemma {:induction false} InitializeAllKeepsGood(m: MM.Monitor, n: nat, now: int)
    requires MM.Good(m)
    ensures MM.Good(InitializeAll(m, n, now))
    decreases n
  {
    if n > 0 {
      InitializeAllKeepsGood(m, n - 1, now);
      MM.OperationsKeepGood(InitializeAll(m, n - 1, now), n, "", 0, 0, now);
    }
  }

  /** The constructor establishes the invariant. */
  lemma NewControllerSound(m: MM.Monitor, now: int)
    requires MM.Good(m)
    ensures Sound(NewController(m, now))
  {
    InitializeAllKeepsGood(m, StackCount, now);
  }

  /** Replacing a stack by one with the same id and type keeps the layout,
      and the id still finds that position. */
  lemma ReplaceKeepsLayout(stacks: seq<Stack>, i: nat, s: Stack)
    requires WellFormed(stacks) && i < |stacks|
    requires s.id == stacks[i].id && s.kind == stacks[i].kind
    ensures WellFormed(stacks[i := s])
    ensures IndexOf(stacks[i := s], s.id) == Some(i)
  {
    IndexOfWellFormed(stacks[i := s], s.id);
  }

  /** The `try` block on an unlocked stack of at most 900 items, in a pool
      where no stack is over the maximum size: it takes the lease, appends
      the payload and records the write; the critical-memory branch and the
      balancing pass have nothing to do. */
  lemma WriteBodyAppends(c: Controller, i: nat, p: Payload, now: int, elapsed: int)
    requires WellFormed(c.stacks) && i < |c.stacks|
    requires !c.stacks[i].locked && !IsStackNearCapacity(c.stacks[i])
    requires forall j :: 0 <= j < |c.stacks| ==> |c.stacks[j].data| <= MaxStackSize
    ensures
      var s := c.stacks[i];
      var s' := s.(data := s.data + [p], lastAccess := now, accessCount := s.accessCount + 1,
                   locked := true, lockTimeout := Pending);
      WriteBody(c, i, p, now, elapsed)
        == Outcome(Controller(c.stacks[i := s'],
                              MM.UpdateMemoryStats(MM.RecordOperation(c.monitor, s.id, "writes", elapsed), s.id, |s.data| + 1)),
                   None)
  {
    var s := c.stacks[i];
    IndexOfWellFormed(c.stacks, s.id);
    var c1 := LockStack(c, s.id).state;
    assert c1.stacks == c.stacks[i := s.(locked := true, lockTimeout := Pending)];
    var s' := s.(data := s.data + [p], lastAccess := now, accessCount := s.accessCount + 1,
                 locked := true, lockTimeout := Pending);
    var c2 := c1.(stacks := c1.stacks[i := c1.stacks[i].(accessCount := c1.stacks[i].accessCount + 1)]);
    assert !IsStackNearCapacity(c2.stacks[i]);
    var c3 := c2.(stacks := c2.stacks[i := c2.stacks[i].(data := c2.stacks[i].data + [p], lastAccess := now)]);
    assert c3.stacks == c.stacks[i := s'];
    BalanceIdle(c3, 0, elapsed);
    assert BalanceMemoryStacks(c3, elapsed) == c3;
    assert c3.stacks[i].id == s.id && |c3.stacks[i].data| == |s.data| + 1;
  }

  /** A valid payload with an eligible stack is always written: the selected
      stack takes the payload at its end and is released, no other stack
      changes, and the registry records the write and the new size. */
  lemma WriteAppends(c: Controller, p: Payload, now: int, elapsed: int, i: nat)
    requires WellFormed(c.stacks) && forall j :: 0 <= j < |c.stacks| ==> |c.stacks[j].data| <= MaxStackSize
    requires ValidateData(p) && FindOptimalStack(c.stacks, p) == Some(i)
    ensures
      var r, s := WriteCacheableData(c, p, now, elapsed), c.stacks[i];
      && r.thrown.None?
      && r.state.stacks == c.stacks[i := Written(s, p, now)]
      && r.state.monitor
         == MM.UpdateMemoryStats(MM.RecordOperation(c.monitor, s.id, "writes", elapsed), s.id, |s.data| + 1)
  {
    var s := c.stacks[i];
    WriteBodyAppends(c, i, p, now, elapsed);
    var s' := s.(data := s.data + [p], lastAccess := now, accessCount := s.accessCount + 1,
                 locked := true, lockTimeout := Pending);
    var body := WriteBody(c, i, p, now, elapsed).state;
    ReplaceKeepsLayout(c.stacks, i, s');
    ReleaseUnlocks(body, i, None);
    assert s'.(locked := false, lockTimeout := Unset) == Written(s, p, now);
    OverwriteTwice(c.stacks, i, s', Written(s, p, now));
  }

  /** The error path and the `finally` block together, as `writeCacheableData`
      runs them after a failure on the stack at `i`
      (MemoryController.js:63-73): the error is counted, recovering the stack
      at the threshold, the lease is released, and the caller sees the
      original error. The registry changes only by the recovery's size
      update. */
  lemma FailedWriteReleases(c: Controller, i: nat, e: Error)
    requires i < |c.stacks|
    requires IndexOf(c.stacks, c.stacks[i].id) == Some(i)
    ensures
      var r, s := Release(OnWriteError(c, i), i, Some(e)), c.stacks[i];
      && r.thrown == Some(e)
      && |r.state.stacks| == |c.stacks|
      && (forall j :: 0 <= j < |c.stacks| && j != i ==> r.state.stacks[j] == c.stacks[j])
      && !r.state.stacks[i].locked && r.state.stacks[i].lockTimeout == Unset
      && (s.errorCount + 1 < MaxErrorThreshold ==>
            && r.state.stacks[i].errorCount == s.errorCount + 1
            && r.state.stacks[i].data == s.data
            && r.state.stacks[i].accessCount == s.accessCount
            && r.state.monitor == c.monitor)
      && (s.errorCount + 1 >= MaxErrorThreshold ==>
            && r.state.stacks[i].errorCount == 0
            && r.state.stacks[i].accessCount == 0
            && r.state.stacks[i].data == Revalidate(s.data)
            && r.state.monitor == MM.UpdateMemoryStats(c.monitor, s.id, |Revalidate(s.data)|))
  {
  }

  /** The `finally` block on a stack that is found by its id clears its
      lease and timer and changes nothing else. */
  lemma ReleaseUnlocks(c: Controller, i: nat, pending: Option<Error>)
    requires i < |c.stacks| && IndexOf(c.stacks, c.stacks[i].id) == Some(i)
    ensures Release(c, i, pending)
      == Outcome(c.(stacks := c.stacks[i := c.stacks[i].(locked := false, lockTimeout := Unset)]), pending)
  {
  }

  /** A write throws exactly when the payload is invalid or no stack is
      eligible, a successful write adds exactly one item to the pool, and
      every write keeps the invariant. */
  lemma WriteKeepsSound(c: Controller, p: Payload, now: int, elapsed: int)
    requires Sound(c)
    ensures
      var r := WriteCacheableData(c, p, now, elapsed);
      && (r.thrown.Some? <==> !ValidateData(p) || FindOptimalStack(c.stacks, p).None?)
      && (r.thrown.None? ==> TotalItems(r.state.stacks) == TotalItems(c.stacks) + 1)
      && Sound(r.state)
  {
    if ValidateData(p) && FindOptimalStack(c.stacks, p).Some? {
      var i := FindOptimalStack(c.stacks, p).value;
      var s := c.stacks[i];
      WriteAppends(c, p, now, elapsed, i);
      TotalItemsUpdate(c.stacks, i, Written(s, p, now));
      WrittenKeepsSound(c, i, p, now, elapsed);
    }
  }

  lemma WrittenKeepsSound(c: Controller, i: nat, p: Payload, now: int, elapsed: int)
    requires Sound(c) && i < |c.stacks| && !IsStackNearCapacity(c.stacks[i])
    ensures
      var s := c.stacks[i];
      Sound(Controller(c.stacks[i := Written(s, p, now)],
                       MM.UpdateMemoryStats(MM.RecordOperation(c.monitor, s.id, "writes", elapsed), s.id, |s.data| + 1)))
  {
    var s := c.stacks[i];
    ReplaceKeepsLayout(c.stacks, i, Written(s, p, now));
    MM.RecordKeepsGood(c.monitor, s.id, "writes", elapsed);
    MM.UpdateKeepsGood(MM.RecordOperation(c.monitor, s.id, "writes", elapsed), s.id, |s.data| + 1);
  }

  /** A held lease cannot be taken again: the second `lockStack` throws and
      changes nothing. */
  lemma LockTwiceFails(c: Controller, id: int)
    requires WellFormed(c.stacks) && LockStack(c, id).thrown.None?
    ensures
      var c1 := LockStack(c, id).state;
      LockStack(c1, id) == Outcome(c1, Some(AlreadyLocked))
  {
    IndexOfWellFormed(c.stacks, id);
    var c1 := LockStack(c, id).state;
    assert WellFormed(c1.stacks);
    IndexOfWellFormed(c1.stacks, id);
  }

  /** Locking a free stack without a timer and unlocking it again restores
      the pool exactly. */
  lemma LockUnlockRestores(c: Controller, id: int)
    requires WellFormed(c.stacks) && 1 <= id <= StackCount
    requires !c.stacks[id - 1].locked && c.stacks[id - 1].lockTimeout == Unset
    ensures LockStack(c, id).thrown.None?
    ensures UnlockStack(LockStack(c, id).state, id) == Outcome(c, None)
  {
    IndexOfWellFormed(c.stacks, id);
    var c1 := LockStack(c, id).state;
    assert WellFormed(c1.stacks);
    IndexOfWellFormed(c1.stacks, id);
    assert c1.stacks[id - 1 := c1.stacks[id - 1].(locked := false, lockTimeout := Unset)] == c.stacks;
  }

  /** Unlocking cancels the timer: after a lock and an unlock, the timeout no
      longer has any effect. */
  lemma UnlockCancelsTimeout(c: Controller, id: int)
    requires WellFormed(c.stacks) && 1 <= id <= StackCount
    ensures
      var u := UnlockStack(LockStack(c, id).state, id).state;
      LockTimeoutFires(u, id) == u
  {
    IndexOfWellFormed(c.stacks, id);
    var c1 := LockStack(c, id).state;
    assert WellFormed(c1.stacks);
    IndexOfWellFormed(c1.stacks, id);
    var u := UnlockStack(c1, id).state;
    assert WellFormed(u.stacks);
    IndexOfWellFormed(u.stacks, id);
  }

  /** A lease that is never released is forced free when its timer fires:
      the stack is unlocked, its error count rises by one and the registry
      records an `errors` operation of the timeout's length; the timer fires
      once only, and the stack can be locked again afterwards. */
  lemma TimeoutForcesRelease(c: Controller, id: int)
    requires WellFormed(c.stacks) && 1 <= id <= StackCount && !c.stacks[id - 1].locked
    ensures
      var t := LockTimeoutFires(LockStack(c, id).state, id);
      var s := c.stacks[id - 1];
      && t.stacks == c.stacks[id - 1 := s.(errorCount := s.errorCount + 1, lockTimeout := Expired)]
      && t.monitor == MM.RecordOperation(c.monitor, id, "errors", LockTimeoutDuration)
      && LockTimeoutFires(t, id) == t
      && LockStack(t, id).thrown.None?
  {
    var i, s := id - 1, c.stacks[id - 1];
    var freed := s.(errorCount := s.errorCount + 1, lockTimeout := Expired);
    var t := Controller(c.stacks[i := freed], MM.RecordOperation(c.monitor, id, "errors", LockTimeoutDuration));
    IndexOfWellFormed(c.stacks, id);
    FireAfterLock(c, id);
    assert LockTimeoutFires(LockStack(c, id).state, id) == t;
    ReplaceKeepsLayout(c.stacks, i, freed);
    ExpiredIsIdle(t, id);
  }

  /** The timer of a fresh lease, once fired, undoes the lease and counts
      one error. */
  lemma FireAfterLock(c: Controller, id: int)
    requires IndexOf(c.stacks, id) == Some(id - 1) && !c.stacks[id - 1].locked
    ensures
      var s := c.stacks[id - 1];
      LockTimeoutFires(LockStack(c, id).state, id)
        == Controller(c.stacks[id - 1 := s.(errorCount := s.errorCount + 1, lockTimeout := Expired)],
                      MM.RecordOperation(c.monitor, id, "errors", LockTimeoutDuration))
  {
    var i, s := id - 1, c.stacks[id - 1];
    var c1 := LockedState(c, id);
    FireLocked(c1, id);
    var freed := s.(errorCount := s.errorCount + 1, lockTimeout := Expired);
    assert c1.stacks[i].(locked := false, errorCount := s.errorCount + 1, lockTimeout := Expired) == freed;
    OverwriteTwice(c.stacks, i, c1.stacks[i], freed);
  }

  /** Writing a position twice leaves only the second write. */
  lemma OverwriteTwice(stacks: seq<Stack>, i: nat, a: Stack, b: Stack)
    requires i < |stacks|
    ensures stacks[i := a][i := b] == stacks[i := b]
  {
  }

  /** A released stack whose timer has fired is left alone by that timer
      and can be leased again. */
  lemma ExpiredIsIdle(c: Controller, id: int)
    requires WellFormed(c.stacks) && 1 <= id <= StackCount
    requires !c.stacks[id - 1].locked && c.stacks[id - 1].lockTimeout == Expired
    ensures LockTimeoutFires(c, id) == c
    ensures LockStack(c, id).thrown.None?
  {
    IndexOfWellFormed(c.stacks, id);
  }

  /** A successful `lockStack` holds exactly the lease, and the stack stays
      findable by its id. */
  lemma LockedState(c: Controller, id: int) returns (c1: Controller)
    requires IndexOf(c.stacks, id) == Some(id - 1) && !c.stacks[id - 1].locked
    ensures c1 == LockStack(c, id).state
    ensures c1 == c.(stacks := c.stacks[id - 1 := c.stacks[id - 1].(locked := true, lockTimeout := Pending)])
    ensures IndexOf(c1.stacks, id) == Some(id - 1)
  {
    var held := c.stacks[id - 1].(locked := true, lockTimeout := Pending);
    c1 := LockStack(c, id).state;
    assert c1.stacks == c.stacks[id - 1 := held];
    IndexOfReplace(c.stacks, id - 1, held);
  }

  /** Replacing a stack by one with the same id keeps it the first with
      that id. */
  lemma IndexOfReplace(stacks: seq<Stack>, i: nat, s: Stack)
    requires IndexOf(stacks, s.id) == Some(i)
    ensures IndexOf(stacks[i := s], s.id) == Some(i)
  {
    assert stacks[i := s][i].id == s.id;
  }

  /** The timer of a held lease releases it, counts an error and records
      an `errors` operation. */
  lemma FireLocked(c: Controller, id: int)
    requires IndexOf(c.stacks, id) == Some(id - 1)
    requires c.stacks[id - 1].locked && c.stacks[id - 1].lockTimeout == Pending
    ensures
      var s := c.stacks[id - 1];
      LockTimeoutFires(c, id)
        == Controller(c.stacks[id - 1 := s.(locked := false, errorCount := s.errorCount + 1, lockTimeout := Expired)],
                      MM.RecordOperation(c.monitor, id, "errors", LockTimeoutDuration))
  {
  }

  /** `lockStack` keeps the invariant. */
  lemma LockKeepsSound(c: Controller, id: int)
    requires Sound(c)
    ensures Sound(LockStack(c, id).state)
  {
    IndexOfWellFormed(c.stacks, id);
    if 1 <= id <= StackCount && !c.stacks[id - 1].locked {
      ReplaceKeepsLayout(c.stacks, id - 1, c.stacks[id - 1].(locked := true, lockTimeout := Pending));
    }
  }

  /** `unlockStack` keeps the invariant. */
  lemma UnlockKeepsSound(c: Controller, id: int)
    requires Sound(c)
    ensures Sound(UnlockStack(c, id).state)
  {
    IndexOfWellFormed(c.stacks, id);
    if 1 <= id <= StackCount {
      ReplaceKeepsLayout(c.stacks, id - 1, c.stacks[id - 1].(locked := false, lockTimeout := Unset));
    }
  }

  /** A lock timer firing keeps the invariant. */
  lemma TimeoutKeepsSound(c: Controller, id: int)
    requires Sound(c)
    ensures Sound(LockTimeoutFires(c, id))
  {
    IndexOfWellFormed(c.stacks, id);
    if 1 <= id <= StackCount {
      var i := id - 1;
      var s := c.stacks[i];
      var r := LockTimeoutFires(c, id);
      if s.lockTimeout == Pending && s.locked {
        var s' := s.(locked := false, errorCount := s.errorCount + 1, lockTimeout := Expired);
        assert r.stacks == c.stacks[i := s'];
        ReplaceKeepsLayout(c.stacks, i, s');
        MM.RecordKeepsGood(c.monitor, id, "errors", LockTimeoutDuration);
      }
    }
  }

  /** A read keeps the invariant: it touches access times and counts only. */
  lemma ReadKeepsSound(c: Controller, p: Payload, now: int, elapsed: int)
    requires Sound(c)
    ensures Sound(ProcessReadData(c, p, now, elapsed).state)
  {
    if ValidateData(p) {
      TouchKeepsLayout(c.stacks, KindOf(p), now);
      match FirstOfKind(c.stacks, KindOf(p))
      case None =>
      case Some(j) =>
        MM.RecordKeepsGood(c.monitor, c.stacks[j].id, "reads", elapsed);
    }
  }

  /** Touching a stack keeps the pool's layout, leases and sizes sound. */
  lemma TouchKeepsLayout(stacks: seq<Stack>, k: Kind, now: int)
    requires WellFormed(stacks)
    requires forall i :: 0 <= i < |stacks| ==> LeaseSound(stacks[i]) && |stacks[i].data| <= MaxStackSize
    ensures
      var r := TouchFirstUnlocked(stacks, k, now);
      && WellFormed(r)
      && (forall i :: 0 <= i < |r| ==> LeaseSound(r[i]) && |r[i].data| <= MaxStackSize)
  {
    var touched := TouchFirstUnlocked(stacks, k, now);
    match FirstFree(stacks, k) {
      case None =>
      case Some(i) =>
        ReplaceKeepsLayout(stacks, i, touched[i]);
        assert touched == stacks[i := touched[i]];
    }
  }

  lemma {:induction false} HealthCheckKeepsGood(c: Controller, from: nat, now: int)
    requires from <= |c.stacks| && MM.Good(c.monitor)
    ensures MM.Good(HealthCheckRound(c, from, now).monitor)
    decreases |c.stacks| - from
  {
    if from < |c.stacks| {
      MM.SnapshotKeepsGood(c.monitor, c.stacks[from].id, now);
      HealthCheckKeepsGood(c.(monitor := MM.TakeSnapshot(c.monitor, c.stacks[from].id, now)), from + 1, now);
    }
  }

  /** The public operations of the pool, with the clock readings and
      durations each one observes. */
  datatype Op =
    | Write(p: Payload, now: int, elapsed: int)
    | Read(p: Payload, now: int, elapsed: int)
    | Lock(id: int)
    | Unlock(id: int)
    | Timeout(id: int)
    | HealthCheck(now: int)
    | Report(id: int, now: int)

  function Step(c: Controller, op: Op): Controller {
    match op
    case Write(p, now, elapsed) => WriteCacheableData(c, p, now, elapsed).state
    case Read(p, now, elapsed) => ProcessReadData(c, p, now, elapsed).state
    case Lock(id) => LockStack(c, id).state
    case Unlock(id) => UnlockStack(c, id).state
    case Timeout(id) => LockTimeoutFires(c, id)
    case HealthCheck(now) => HealthCheckRound(c, 0, now)
    case Report(id, now) => c.(monitor := MM.GenerateReport(c.monitor, id, now).0)
  }

  function Run(c: Controller, ops: seq<Op>): Controller
    decreases |ops|
  {
    if ops == [] then c else Run(Step(c, ops[0]), ops[1..])
  }

  /** Whatever the operations and their order, a pool that starts sound stays
      sound: the layout never changes, every held lease has a timer, no stack
      grows past its maximum size, and the registry keeps its invariant. */
  lemma {:induction false} RunKeepsSound(c: Controller, ops: seq<Op>)
    requires Sound(c)
    ensures Sound(Run(c, ops))
    decreases |ops|
  {
    if ops != [] {
      StepKeepsSound(c, ops[0]);
      RunKeepsSound(Step(c, ops[0]), ops[1..]);
    }
  }

  /** Each single operation keeps the invariant. */
  lemma StepKeepsSound(c: Controller, op: Op)
    requires Sound(c)
    ensures Sound(Step(c, op))
  {
    match op
    case Write(p, now, elapsed) => WriteKeepsSound(c, p, now, elapsed);
    case Read(p, now, elapsed) => ReadKeepsSound(c, p, now, elapsed);
    case Lock(id) => LockKeepsSound(c, id);
    case Unlock(id) => UnlockKeepsSound(c, id);
    case Timeout(id) => TimeoutKeepsSound(c, id);
    case HealthCheck(now) => HealthCheckKeepsGood(c, 0, now);
    case Report(id, now) => MM.OperationsKeepGood(c.monitor, id, "", 0, 0, now);
  }

  /** On any pool reached from the constructor, the health check's third
      condition, a held lease without a timer, never holds, and every stack
      stays within its maximum size. */
  lemma HealthLeaseConditionUnreachable(m: MM.Monitor, now: int, ops: seq<Op>, later: int)
    requires MM.Good(m)
    ensures
      var c := Run(NewController(m, now), ops);
      forall i :: 0 <= i < |c.stacks| ==>
        && !(c.stacks[i].locked && c.stacks[i].lockTimeout == Unset)
        && |c.stacks[i].data| <= MaxStackSize
        && (Unhealthy(c.stacks[i], later) <==>
              || c.stacks[i].errorCount * 10 > (if c.stacks[i].accessCount > 1 then c.stacks[i].accessCount else 1)
              || later - c.stacks[i].lastAccess > IdleLimit)
  {
    NewControllerSound(m, now);
    RunKeepsSound(NewController(m, now), ops);
  }
}

=== FILE: queue.dfy ===
/** The FIFO buffer that feeds worker results, one at a time, into the cache
    write path (NodeQueueBuffer.js). Logging of items that carry a fragment id
    has no effect on the queue and is not modelled. */
module NodeQueueBuffer {
  import opened Common

  datatype Queue<T> = Queue(items: seq<T>)

  /** A freshly constructed buffer holds nothing. */
  function Empty<T>(): (q: Queue<T>)
    ensures IsEmpty(q)
  {
    Queue([])
  }

  /** `push` appends its argument at the back, whatever the argument is. */
  function Push<T>(q: Queue<T>, x: T): (r: Queue<T>)
    ensures |r.items| == |q.items| + 1
    ensures r.items[|q.items|] == x
    ensures r.items[..|q.items|] == q.items
  {
    Queue(q.items + [x])
  }

  /** `pop` is `Array.prototype.shift`: the front element, or `undefined`
      (here `None`) on an empty queue, which stays empty. */
  function Pop<T>(q: Queue<T>): (r: (Option<T>, Queue<T>))
    ensures q.items == [] ==> r.0.None? && r.1.items == []
    ensures q.items != [] ==> r.0 == Some(q.items[0]) && [q.items[0]] + r.1.items == q.items
  {
    if q.items == [] then (None, q)
    else (Some(q.items[0]), Queue(q.items[1..]))
  }

  predicate IsEmpty<T>(q: Queue<T>) {
    |q.items| == 0
  }

  /** Pushes every element of `xs`, left to right. */
  function PushAll<T>(q: Queue<T>, xs: seq<T>): (r: Queue<T>)
    decreases |xs|
  {
    if xs == [] then q else PushAll(Push(q, xs[0]), xs[1..])
  }

  /** Pops until the queue reports empty, collecting what `pop` returned; this
      is the consumer loop that drains the buffer. */
  function Drain<T>(q: Queue<T>): seq<T>
    decreases |q.items|
  {
    match Pop(q)
    case (None, _) => []
    case (Some(x), rest) => [x] + Drain(rest)
  }

  /** `isEmpty` holds exactly when nothing can be popped. */
  lemma IsEmptyIffPopNone<T>(q: Queue<T>)
    ensures IsEmpty(q) <==> Pop(q).0.None?
  {
  }

  lemma {:induction false} PushAllAppends<T>(q: Queue<T>, xs: seq<T>)
    ensures PushAll(q, xs).items == q.items + xs
    decreases |xs|
  {
    if xs != [] {
      PushAllAppends(Push(q, xs[0]), xs[1..]);
      assert q.items + [xs[0]] + xs[1..] == q.items + xs;
    }
  }

  /** Draining returns the queued elements front to back. */
  lemma {:induction false} DrainInOrder<T>(q: Queue<T>)
    ensures Drain(q) == q.items
    decreases |q.items|
  {
    if q.items != [] {
      DrainInOrder(Queue(q.items[1..]));
    }
  }

  /** FIFO: pushing `xs` onto an empty buffer and draining it yields `xs` in
      the order it was pushed, and leaves nothing behind. */
  lemma Fifo<T>(xs: seq<T>)
    ensures Drain(PushAll(Empty(), xs)) == xs
  {
    PushAllAppends(Empty<T>(), xs);
    DrainInOrder(PushAll(Empty<T>(), xs));
  }
}

=== FILE: stacks.dfy ===
/** One memory stack of the pool and the pure operations on its contents:
    the capacity test, the `optimizeStack` trim with its most-recently-used
    sort, and the re-validation pass of `handleStackFailure`
    (MemoryController.js). */
module MemoryStacks {
  import opened Payloads

  /** `maxErrorThreshold` (MemoryController.js:16). */
  const MaxErrorThreshold: nat := 5
  /** `lockTimeoutDuration` in milliseconds (MemoryController.js:17). */
  const LockTimeoutDuration: nat := 5000
  /** `maxStackSize` (MemoryController.js:18). */
  const MaxStackSize: nat := 1000
  /** `maxStackSize * criticalMemoryThreshold`, that is `1000 * 0.9`. */
  const CriticalSize: nat := 900

  /** The `lockTimeout` field: `null`, or the handle of a timer that is still
      pending or has already fired (a fired timer's handle is not cleared). */
  datatype Timer = Unset | Pending | Expired

  datatype Stack = Stack(
    id: int,
    kind: Kind,
    data: seq<Payload>,
    lastAccess: int,
    locked: bool,
    lockTimeout: Timer,
    accessCount: nat,
    errorCount: nat)

  /** `isStackNearCapacity` (MemoryController.js:104-106): the fill exceeds
      nine tenths of the maximum size. */
  predicate IsStackNearCapacity(s: Stack) {
    |s.data| * 10 > MaxStackSize * 9
  }

  // ---------------------------------------------------------------------------
  // The most-recently-used ordering of `optimizeStack`

  /** Ordered by `lastAccess`, newest first. */
  ghost predicate Descending(s: seq<Payload>) {
    forall i, j :: 0 <= i < j < |s| ==> Stamp(s[i]) >= Stamp(s[j])
  }

  /** Places `x` before the first item no newer than it, so that equal keys
      keep their original order. */
  function InsertMru(x: Payload, s: seq<Payload>): (r: seq<Payload>)
    requires Descending(s)
    ensures Descending(r)
    ensures multiset(r) == multiset(s) + multiset{x}
    ensures |r| == |s| + 1
    ensures r[0] == x || (|s| > 0 && r[0] == s[0])
  {
    if s == [] || Stamp(s[0]) <= Stamp(x) then
      ConsDescending(x, s);
      [x] + s
    else
      assert s == [s[0]] + s[1..];
      var rest := InsertMru(x, s[1..]);
      ConsDescending(s[0], rest);
      [s[0]] + rest
  }

  /** An item no older than the head of a newest-first sequence may go in
      front of it. */
  lemma ConsDescending(x: Payload, s: seq<Payload>)
    requires Descending(s) && (|s| > 0 ==> Stamp(x) >= Stamp(s[0]))
    ensures Descending([x] + s)
  {
    var r := [x] + s;
    forall i, j | 0 <= i < j < |r| ensures Stamp(r[i]) >= Stamp(r[j]) {
      assert r[j] == s[j - 1];
      if i > 0 {
        assert r[i] == s[i - 1];
      } else if j > 1 {
        assert Stamp(s[0]) >= Stamp(s[j - 1]);
      }
    }
  }

  /** `data.sort((a, b) => b.lastAccess - a.lastAccess)`: newest first
      (MemoryController.js:224). */
  function SortMru(s: seq<Payload>): (r: seq<Payload>)
    ensures Descending(r)
    ensures multiset(r) == multiset(s)
    ensures |r| == |s|
  {
    if s == [] then []
    else
      assert s == [s[0]] + s[1..];
      InsertMru(s[0], SortMru(s[1..]))
  }

  // ---------------------------------------------------------------------------
  // optimizeStack

  /** `Math.floor(length * 0.8)`, read as the integer `4n/5`. */
  function KeepCount(n: nat): (k: nat)
    ensures k <= n && (n > 0 ==> k < n)
    ensures k * 5 <= n * 4 < (k + 1) * 5
  {
    n * 4 / 5
  }

  /** The guard `data[0] && data[0].lastAccess` (MemoryController.js:223). */
  predicate SortsByAccess(data: seq<Payload>) {
    |data| > 0 && HasLastAccess(data[0])
  }

  /** The order `optimizeStack` trims: MRU-sorted when the first item carries
      a `lastAccess`, as stored otherwise. */
  function Arranged(data: seq<Payload>): (r: seq<Payload>)
    ensures multiset(r) == multiset(data) && |r| == |data|
    ensures SortsByAccess(data) ==> Descending(r)
    ensures !SortsByAccess(data) ==> r == data
  {
    if SortsByAccess(data) then SortMru(data) else data
  }

  /** The contents `optimizeStack` leaves, as written
      (MemoryController.js:218-233): the last `keep` items of the arranged
      sequence, where `slice(-0)` keeps everything. */
  function OptimizeDataAsWritten(data: seq<Payload>): (r: seq<Payload>)
    ensures |r| <= |data|
    ensures multiset(r) <= multiset(data)
    ensures KeepCount(|data|) > 0 ==> |r| == KeepCount(|data|) && r == Arranged(data)[|data| - |r|..]
    ensures KeepCount(|data|) == 0 ==> r == Arranged(data) && |data| <= 1
  {
    var keep := KeepCount(|data|);
    var arranged := Arranged(data);
    if keep == 0 then arranged
    else
      assert arranged == arranged[..|data| - keep] + arranged[|data| - keep..];
      arranged[|data| - keep..]
  }

  /** The contents `optimizeStack` is meant to leave: exactly `floor(0.8 n)`
      items, the tail of the arranged sequence, also when that count is 0.
      This is the definition the pool uses; it differs from the trim as
      written only on stacks of at most one item (`TrimsAgree`). */
  function OptimizeData(data: seq<Payload>): (r: seq<Payload>)
    ensures |r| == KeepCount(|data|)
    ensures multiset(r) <= multiset(data)
    ensures r == Arranged(data)[|data| - |r|..]
    ensures !SortsByAccess(data) ==> r == data[|data| - |r|..]
    ensures SortsByAccess(data) ==> Descending(r)
  {
    var keep := KeepCount(|data|);
    var arranged := Arranged(data);
    assert arranged == arranged[..|data| - keep] + arranged[|data| - keep..];
    arranged[|data| - keep..]
  }

  /** On every stack of two or more items the corrected trim leaves exactly
      what the trim as written leaves; every stack the pool trims holds more
      than 900 items. */
  lemma TrimsAgree(data: seq<Payload>)
    requires |data| >= 2
    ensures OptimizeDataAsWritten(data) == OptimizeData(data)
  {
    assert KeepCount(|data|) > 0;
  }

  /** With the access-time sort, the trim keeps the least recently used
      items: everything it drops is at least as new as everything it
      keeps. */
  lemma TrimDropsNewest(data: seq<Payload>)
    requires SortsByAccess(data)
    ensures
      var a, r := Arranged(data), OptimizeData(data);
      forall i, j :: 0 <= i < |data| - |r| <= j < |data| ==> Stamp(a[i]) >= Stamp(a[j])
  {
  }

  /** The two definitions of the trim part ways on one item: the written
      trim keeps it although `floor(0.8) = 0`, the corrected trim empties
      the stack. On two items with distinct access times both keep the
      older one. */
  lemma TrimCounterexamples()
    ensures
      var only := Static(1, true, 0);
      && KeepCount(1) == 0
      && OptimizeDataAsWritten([only]) == [only]
      && OptimizeData([only]) == []
    ensures
      var newer, older := Static(1, true, 2), Static(2, true, 1);
      && OptimizeDataAsWritten([newer, older]) == [older]
      && OptimizeData([newer, older]) == [older]
  {
    var newer, older := Static(1, true, 2), Static(2, true, 1);
    assert SortMru([older]) == [older];
    assert SortMru([newer, older]) == InsertMru(newer, [older]);
    assert KeepCount(2) == 1;
  }

  /** Trimming never grows a stack, strictly shrinks a non-empty one, and
      repeated trims reach the empty stack. */
  lemma {:induction false} TrimConverges(data: seq<Payload>, rounds: nat)
    requires rounds >= |data|
    ensures |TrimTimes(data, rounds)| == 0
    decreases rounds
  {
    if rounds > 0 {
      var next := OptimizeData(data);
      assert |next| == KeepCount(|data|);
      TrimConverges(next, rounds - 1);
      assert TrimTimes(data, rounds) == TrimTimes(next, rounds - 1);
    }
  }

  function TrimTimes(data: seq<Payload>, rounds: nat): (r: seq<Payload>)
    ensures |r| <= |data|
    decreases rounds
  {
    if rounds == 0 then data else TrimTimes(OptimizeData(data), rounds - 1)
  }

  // ---------------------------------------------------------------------------
  // handleStackFailure

  /** The re-validation loop of `handleStackFailure`
      (MemoryController.js:157-161): the items that still validate, in their
      original order. */
  function Revalidate(data: seq<Payload>): (r: seq<Payload>)
    ensures |r| <= |data|
  {
    if data == [] then []
    else
      var rest := Revalidate(data[1..]);
      if ValidateData(data[0]) then [data[0]] + rest else rest
  }

  /** Recovery keeps exactly the items that validate, each as often as the
      stack held it, and nothing else. */
  lemma {:induction false} RevalidateFilters(data: seq<Payload>)
    ensures var r := Revalidate(data);
      && (forall x :: multiset(r)[x] == if ValidateData(x) then multiset(data)[x] else 0)
      && (forall i :: 0 <= i < |r| ==> ValidateData(r[i]))
  {
    if data != [] {
      assert data == [data[0]] + data[1..];
      RevalidateFilters(data[1..]);
    }
  }

  /** Recovery filters piecewise: the survivors of a concatenation are the
      survivors of each part, in order. With the definition on a single item
      this fixes the result as the order-preserving filter. */
  lemma {:induction false} RevalidateAppend(a: seq<Payload>, b: seq<Payload>)
    ensures Revalidate(a + b) == Revalidate(a) + Revalidate(b)
    decreases |a|
  {
    if a == [] {
      assert a + b == b;
    } else {
      assert (a + b)[0] == a[0] && (a + b)[1..] == a[1..] + b;
      RevalidateAppend(a[1..], b);
    }
  }

  /** Recovery never loses an item that validates: on contents that all
      validate it changes nothing. */
  lemma {:induction false} RevalidateKeepsValid(data: seq<Payload>)
    requires forall i :: 0 <= i < |data| ==> ValidateData(data[i])
    ensures Revalidate(data) == data
  {
    if data != [] {
      RevalidateKeepsValid(data[1..]);
    }
  }
}
